=== FILE: README.md ===
# kontrollar-backend: a Dafny model of the user and project repositories and the auth routes

This project models the sequential core of kontrollar-backend, a Fastify and
PostgreSQL back end for project management. It covers three files:

- **User repository** (`src/repositories/perfil.repository.js`). The
  `users` table is an abstract store of rows with generated ids. Email
  addresses are unique, ignoring case. Every user handed back is
  projected onto the safe field list, which has no password digest. The
  only exception is the lookup by email used for authentication. Covered:
  create with its defaults, partial update through the dynamic SET
  builder, password change, delete, and the three reads.
- **Project repository** (`src/repositories/projects.repository.js`).
  Covered:
  - the fixed status and priority option sets, and the defaults and
    validation of `createProject`;
  - the allow-list, validation and SET builder of `updateProject`;
  - `getProjectById` with its inner join on the manager and its member list;
  - `deleteProject` and `getMembers`;
  - `replaceMembers`: its bulk-insert placeholder generation and its
    delete-then-insert replacement, rolled back on any failure;
  - the term construction and ILIKE match of `searchUsersByName`.
- **Authentication routes** (`src/routes/auth.routes.js`). Covered:
  `splitFullName`, and the outcome of the register, login and reset-request
  handlers as pure functions. Each outcome is a status code and a reply body.

The database is a record of immutable tables (`seq<Row>` in insertion order,
with strictly increasing ids), and every repository call is a function from
the store to a new store and a result. A failing call returns a `Failure`.
The server clock (`now`), bcrypt (`digest` and a `matches` predicate), and
failures of the storage itself (`fault`) are parameters.

Modules, one per file:

| module | file | what it holds |
|---|---|---|
| `Values` | values.dfy | JSON/SQL values with `undefined`, data objects as entry lists, destructuring defaults, failures |
| `Text` | text.dfy | JavaScript `trim`, `split(/\s+/)`, `join`, and the case folding used by `LOWER` |
| `Tables` | tables.dfy | rows, tables, lookup by id, insert, overwrite, delete, column projection |
| `SetClause` | set_clause.dfy | the dynamic `UPDATE ... SET` builder and what the statement does to a table |
| `Like` | like.dfy | SQL `LIKE` matching and its substring meaning for `%t%` |
| `Users` | users.dfy | the user repository and the store invariant |
| `Projects` | projects.dfy | the project repository |
| `ProjectFacts` | project_facts.dfy | properties of the project repository |
| `Membership` | members.dfy | `replaceMembers` |
| `Search` | search.dfy | `searchUsersByName` |
| `Auth` | auth.dfy | `splitFullName` and the three auth handlers |

## Model

| member | source | states |
|---|---|---|
| Values.Get | src/repositories/perfil.repository.js:39-45 | reading a property yields the value of the entry with that key, and `undefined` when no entry has it |
| Values.Bound | src/repositories/perfil.repository.js:54-55 | a parameter left `undefined` reaches the database as NULL, and any other value as itself |
| Text.Trim | src/routes/auth.routes.js:12 | `trim()` returns a slice of the input with only white space before and after it, and the slice neither starts nor ends with white space |
| Text.TrimPadded | src/routes/auth.routes.js:12 | trimming a string wrapped in white space gives back exactly the inner string when that string has no white-space border |
| Text.TrimBlank | src/repositories/projects.repository.js:153 | a string trims to the empty string exactly when it is all white space |
| Text.TrimKeepsText | src/routes/auth.routes.js:12 | trimming removes white space only: with white space dropped, the trimmed string and the input are equal |
| Text.Words | src/routes/auth.routes.js:12 | every word is non-empty and free of white space; there are no words exactly when the input is all white space; and when the input starts with a non-white-space character, the first word is the whole run of such characters there |
| Text.WordsKeepText | src/routes/auth.routes.js:12 | the words, concatenated, are the input with every white-space character removed |
| Text.WordsOfJoin | src/routes/auth.routes.js:12-14 | splitting words joined by single spaces gives back the same words |
| Text.WordsRun | src/routes/auth.routes.js:12 | `split(/\s+/)` breaks words only at white space: after any white space, a maximal run of other characters is one word, followed by the words of the rest |
| Text.SqueezeJoin | src/routes/auth.routes.js:14 | joining space-free words with `' '` adds white space only |
| Text.JoinBorders | src/routes/auth.routes.js:14 | words joined by single spaces form a non-empty string that neither starts nor ends with white space |
| Text.LowerAppend | src/repositories/projects.repository.js:157 | lower-casing distributes over concatenation |
| Tables.Find | src/repositories/perfil.repository.js:19-20 | the position found holds the id and no earlier row does; none is found exactly when no row holds the id |
| Tables.Lookup | src/repositories/perfil.repository.js:19-20 | `WHERE id = $1` yields a stored row with that id, or nothing exactly when no row has it |
| Tables.LookupAt | src/repositories/perfil.repository.js:19-20 | in a table with increasing ids, looking up a stored row's id finds that very row |
| Tables.Insert | src/repositories/perfil.repository.js:47-57 | an insert appends one row carrying the next generated id, and keeps the ids increasing |
| Tables.Put | src/repositories/perfil.repository.js:73-77 | an update writes the new columns into one row under its old id; every other row and the id counter stay as they were |
| Tables.LookupAfterPut | src/repositories/perfil.repository.js:73-78 | after the update, reading the id back finds the new columns |
| Tables.Remove | src/repositories/perfil.repository.js:90-95 | a delete removes exactly one row and keeps the others in order |
| SetClause.Filter | src/repositories/perfil.repository.js:62-64 | an entry is kept exactly when its key is on the allow-list and its value is not `undefined`; keys stay distinct |
| SetClause.FilterAppend | src/repositories/perfil.repository.js:62-64 | the filter keeps entry order: it distributes over concatenation |
| SetClause.FilterKeys | src/repositories/projects.repository.js:81-82 | a key survives exactly when it is allowed and defined in the data, and it keeps the data's value |
| SetClause.Numbered | src/repositories/perfil.repository.js:70 | the k-th fragment names the k-th kept key and the placeholder `$first+k` |
| SetClause.ValuesOf | src/repositories/perfil.repository.js:71 | the k-th value is the k-th kept entry's value |
| SetClause.Build | src/repositories/perfil.repository.js:70-76 | the k-th kept key is bound to `$k`, the id to `$n+1`, the parameter list has n+1 entries, and reading the statement back yields exactly the kept entries and the id |
| SetClause.Apply | src/repositories/perfil.repository.js:74 | the SET list touches only the columns it names; every other column keeps its value |
| SetClause.ApplyWrites | src/repositories/perfil.repository.js:74 | with distinct keys, every column named in the SET list ends up with its assigned value |
| SetClause.Execute | src/repositories/perfil.repository.js:73-78 | the statement changes only the row whose id is the last parameter; with no such row it changes nothing and returns nothing |
| SetClause.BuiltUpdateEffect | src/repositories/projects.repository.js:93-104 | the built statement, run against an existing row, performs exactly the partial update the data describes |
| Like.LikeAny | src/repositories/projects.repository.js:157 | the pattern `%` matches every string |
| Like.LikePrefix | src/repositories/projects.repository.js:157 | for a pattern without wildcards, `t%` matches exactly the strings starting with `t` |
| Like.LikeLeading | src/repositories/projects.repository.js:157 | a leading `%` matches exactly when the rest of the pattern matches some suffix |
| Like.LikeContains | src/repositories/projects.repository.js:157 | for `t` without wildcards, `%t%` matches exactly the strings that contain `t` |
| Users.Safe | src/repositories/perfil.repository.js:3-6 | the safe projection keeps the id and exactly the safe columns the row has, and never holds the digest |
| Users.GetAllUsers | src/repositories/perfil.repository.js:13-16 | every user is listed once, safe-projected, in increasing id order, and without a digest |
| Users.GetUserById | src/repositories/perfil.repository.js:18-21 | the safe row with the id, without a digest; null exactly when the id is absent |
| Users.FirstEmailMatch | src/repositories/perfil.repository.js:27-30 | the position of the first row whose email equals the given one, ignoring case; none exactly when no row matches |
| Users.GetUserByEmailWithHash | src/repositories/perfil.repository.js:23-31 | the first case-insensitive email match, with id, names, email, role and digest; null exactly when no user matches |
| Users.InsertValue | src/repositories/perfil.repository.js:39-45 | a supplied value is inserted as given; a missing role becomes `'client'` and any other missing field NULL |
| Users.NewUserColumns | src/repositories/perfil.repository.js:38-56 | a new row has exactly the insert columns and the two timestamps, holds each supplied value, and applies the `'client'` and null defaults |
| Users.TimestampsNotInserted | src/repositories/perfil.repository.js:49-50 | the insert writes the digest and the role but not the timestamps |
| Users.CreateUser | src/repositories/perfil.repository.js:38-58 | the new row is appended and returned safe-projected; the insert fails with a unique violation, writing nothing, exactly when another user has the email, ignoring case |
| Users.UpdateUser | src/repositories/perfil.repository.js:60-79 | with nothing to set it is `getUserById` and writes nothing; an absent id yields null and writes nothing; the only failure is a unique violation; the result has no digest |
| Users.UpdateUserEffect | src/repositories/perfil.repository.js:60-79 | an update of an existing user rewrites only that row, to the partial update of its columns by the allowed defined entries, and returns it safe-projected; a failure means that row would take another user's email |
| Users.UpdateUserPassword | src/repositories/perfil.repository.js:81-88 | only the digest of the row changes, stored as NULL when it is `undefined`; the id, email and update time are returned; null and no change when the id is absent |
| Users.DeleteUser | src/repositories/perfil.repository.js:90-96 | the row is removed and returned safe-projected, after which the id is gone; null and no change when the id is absent |
| Users.AllowedAreStored | src/repositories/perfil.repository.js:8-11 | every allowed column is a stored column, and the digest is not allowed |
| Users.UpdateUserKeepsDigest | src/repositories/perfil.repository.js:8-11 | whatever keys the data carries, a partial update leaves the stored digest as it was |
| Users.ReadAfterUpdate | src/repositories/perfil.repository.js:73-78 | reading the user back after an update gives what the update returned |
| Users.PutKeepsValid | src/repositories/perfil.repository.js:73-77 | overwriting one row with the stored columns and an email no other user has keeps the store invariant |
| Users.CreateUserKeepsValid | src/repositories/perfil.repository.js:47-57 | a successful create keeps ids increasing, rows shaped, and emails unique ignoring case |
| Users.PatchKeepsShape | src/repositories/perfil.repository.js:8-11 | a partial update through the allow-list adds no column a user row does not have |
| Users.UpdateUserWrite | src/repositories/perfil.repository.js:73-77 | a successful update of an existing user writes one row, with the stored columns and an email no other user has |
| Users.UpdateUserKeepsValid | src/repositories/perfil.repository.js:60-79 | a successful update keeps the store invariant |
| Users.UpdateUserPasswordKeepsValid | src/repositories/perfil.repository.js:81-88 | a password change keeps the store invariant |
| Users.DeleteUserKeepsValid | src/repositories/perfil.repository.js:90-96 | a delete keeps the store invariant |
| Users.RemoveKeepsValid | src/repositories/perfil.repository.js:91-92 | removing any one row keeps the store invariant |
| Projects.EntryFailure | src/repositories/projects.repository.js:87-91 | an entry offends exactly when it is a status outside the five options, a priority outside the three, or a numeric progress below 0 or above 100, and it names that error |
| Projects.FirstFailure | src/repositories/projects.repository.js:87-91 | there is an error exactly when some kept entry offends, and it is the error of the first such entry |
| Projects.Referenced | src/repositories/projects.repository.js:44 | a manager value joins a user exactly when it is a number that is the id of a stored user |
| Projects.Views | src/repositories/projects.repository.js:118-128 | the inner join lists every member whose user exists, with that user's full name, the role and the time added; it lists nothing else; and it has one entry per such member |
| Projects.ViewsAllKnown | src/repositories/projects.repository.js:118-128 | when every member's user exists, the join lists every member, in the model's stored order, with the user's full name |
| Projects.GetMembers | src/repositories/projects.repository.js:118-128 | the project's members whose user exists are listed with full name, role and time added, one entry each; nothing else is listed; a project without memberships lists nothing |
| Projects.GetProjectById | src/repositories/projects.repository.js:39-53 | null exactly when the project is absent or its manager is not a user; otherwise the project's columns, the manager's full name and the member list |
| Projects.NewProjectDefaults | src/repositories/projects.repository.js:57-60 | status, priority and progress default to `'Planejamento'`, `'Média'` and 0, and a supplied value, even null, is kept |
| Projects.NewProjectSupplied | src/repositories/projects.repository.js:57-62 | description and deadline default to null; name and manager are as supplied, with NULL for a missing one |
| Projects.NewProjectTimestamps | src/repositories/projects.repository.js:74 | both timestamps of a new project are the server clock |
| Projects.CreateProject | src/repositories/projects.repository.js:55-78 | a bad status is rejected first, then a bad priority, then a manager that is no user, all before any write; otherwise the row with the defaults is appended and returned |
| Projects.UpdateProject | src/repositories/projects.repository.js:80-105 | it fails only with a validation error or the manager foreign key; it never touches users or memberships; a returned row has the id |
| Projects.WriteProject | src/repositories/projects.repository.js:93-104 | the only failure is the manager foreign key; an absent id changes nothing and yields null |
| Projects.DeleteProject | src/repositories/projects.repository.js:107-116 | the project row is removed and returned; null and no change when the id is absent |
| ProjectFacts.UpdateProjectEmpty | src/repositories/projects.repository.js:83 | with no allowed defined key, an update writes nothing and is `getProjectById` |
| ProjectFacts.UpdateProjectAbsent | src/repositories/projects.repository.js:96-104 | valid data for an absent id changes nothing and yields null |
| ProjectFacts.OffendingFails | src/repositories/projects.repository.js:81-91 | the validation loop finds an offending kept entry exactly when the data's status, priority or progress is invalid |
| ProjectFacts.UpdateProjectRejects | src/repositories/projects.repository.js:85-91 | an update fails validation exactly when the data carries an invalid status, priority or progress, and then writes nothing |
| ProjectFacts.UpdateProjectEffect | src/repositories/projects.repository.js:93-104 | an accepted update of an existing project rewrites only that row, by the partial update the data describes, and returns it |
| ProjectFacts.WriteProjectEffect | src/repositories/projects.repository.js:93-104 | the write rewrites only the project's row by the partial update, and fails only when the data names a manager |
| ProjectFacts.CreateProjectAccepts | src/repositories/projects.repository.js:65-68 | a create succeeds exactly when status and priority, after the defaults, are options and the manager exists; the progress plays no part |
| ProjectFacts.CreatedProjectValid | src/repositories/projects.repository.js:65-68 | a created project has a status and a priority from the option sets |
| ProjectFacts.GetProjectByIdNull | src/repositories/projects.repository.js:48-49 | where every manager exists, `getProjectById` is null exactly for an absent id |
| ProjectFacts.CreateProjectKeepsManagers | src/repositories/projects.repository.js:70-76 | a create keeps every project's manager a stored user |
| ProjectFacts.UpdateProjectKeepsManagers | src/repositories/projects.repository.js:80-105 | an update keeps every project's manager a stored user |
| ProjectFacts.WriteProjectKeepsManagers | src/repositories/projects.repository.js:96-104 | the write keeps every project's manager a stored user |
| ProjectFacts.WriteProjectKeepsManager | src/repositories/projects.repository.js:96-104 | the rewritten project still has a stored user as manager |
| ProjectFacts.DeleteProjectKeepsManagers | src/repositories/projects.repository.js:107-116 | a delete keeps every remaining project's manager a stored user |
| ProjectFacts.FilterSingle | src/repositories/projects.repository.js:82 | a single allowed, defined entry survives the filter |
| ProjectFacts.UpdateStatusOnly | src/repositories/projects.repository.js:88 | an update of the status alone fails with the status error exactly when the status is not an option |
| ProjectFacts.UpdateStatusReadBack | src/repositories/projects.repository.js:88-104 | an accepted status update is what the next `getProjectById` shows |
| ProjectFacts.WriteStatusStores | src/repositories/projects.repository.js:96-104 | a status-only write puts the status into the project's row |
| ProjectFacts.WriteStatusReadBack | src/repositories/projects.repository.js:96-104 | after a status-only write, `getProjectById` finds the project with that status |
| ProjectFacts.UpdateStatusScenario | src/repositories/projects.repository.js:19-21 | the status `'Bogus'` is rejected; `'Concluído'` is accepted and read back |
| ProjectFacts.CreateProjectKeepsProgress | src/repositories/projects.repository.js:60 | a create stores a progress of 150 unchecked |
| ProjectFacts.UpdateProgressOnly | src/repositories/projects.repository.js:90 | an update of the progress alone succeeds exactly when the progress lies in 0..100, and otherwise fails with the progress error |
| ProjectFacts.UpdateProgressBounds | src/repositories/projects.repository.js:90 | 0 and 100 are accepted, -1 and 101 rejected |
| Membership.Rows | src/repositories/projects.repository.js:138-140 | the database reads one row per tuple |
| Membership.Tuples | src/repositories/projects.repository.js:136 | n tuples share the project and role placeholders, and their user placeholders strictly increase |
| Membership.Params | src/repositories/projects.repository.js:140 | the parameter list has n+2 entries |
| Membership.BuildBulk | src/repositories/projects.repository.js:136-141 | every placeholder lies in 1..n+2, and the k-th row read back carries the project id, the k-th user id and the role |
| Membership.InsertFailure | src/repositories/projects.repository.js:137-141 | the bulk insert breaks uniqueness exactly when a user id repeats, and a foreign key exactly when the ids are distinct but the project or some user is missing |
| Membership.ReplaceMembers | src/repositories/projects.repository.js:130-150 | it fails exactly on a storage fault or a failing insert, and then leaves the database as it was; on success the project's memberships are exactly the new ones and the refreshed list is returned |
| Membership.ReplaceMembersEmpty | src/repositories/projects.repository.js:133-135 | with no user ids the project ends with no members and the list returned is empty |
| Membership.ReplaceMembersForgetsPrior | src/repositories/projects.repository.js:133 | a successful replacement does not depend on the memberships the project had before |
| Membership.ReplaceMembersLocal | src/repositories/projects.repository.js:133 | users, projects and every other project's memberships are untouched |
| Membership.ReplaceMembersListsAll | src/repositories/projects.repository.js:145 | a successful replacement returns one entry per user id, in the model's stored order, with the user's full name and the role |
| Membership.ReplaceMembersListsEach | src/repositories/projects.repository.js:130-150 | whatever the list's order, a successful replacement lists each given user id exactly once, with the user's full name and the role, and no other user |
| Membership.ReplaceMembersStoresBulk | src/repositories/projects.repository.js:136-141 | the stored memberships are exactly the rows the bulk insert makes the database read |
| Search.Hits | src/repositories/projects.repository.js:154-161 | a user is listed exactly when their full name matches the pattern ignoring case |
| Search.SearchUsersByName | src/repositories/projects.repository.js:152-163 | the result is a prefix of the matches, of length `min(matches, limit)`, where a missing limit means 20 |
| Search.LowerLiteral | src/repositories/projects.repository.js:157 | lower-casing adds no wildcard to a query |
| Search.LowerSearchTerm | src/repositories/projects.repository.js:157 | the lower-cased pattern is `%` around the lower-cased trimmed query |
| Search.NameMatchesContains | src/repositories/projects.repository.js:157 | for a query without wildcards, a user matches exactly when their full name contains the trimmed query, ignoring case |
| Search.SearchSound | src/repositories/projects.repository.js:157 | every listed user's full name contains the trimmed query, ignoring case |
| Search.SearchComplete | src/repositories/projects.repository.js:157-159 | for a query without wildcards, when the matches fit in the limit, every user whose full name contains the query is listed |
| Search.SearchBlank | src/repositories/projects.repository.js:153 | a blank query matches every user with a name |
| Auth.SplitFullName | src/routes/auth.routes.js:11-16 | the first name is the whole first run of non-white-space characters of the trimmed input; it has no white space; and an empty first name comes with an empty last name |
| Auth.SplitBlank | src/routes/auth.routes.js:12-13 | the first name is empty exactly when the full name is blank |
| Auth.SplitKeepsText | src/routes/auth.routes.js:11-16 | the two halves hold the full name's non-white-space characters, in order, and nothing else |
| Auth.SplitOfJoin | src/routes/auth.routes.js:12-15 | words joined by single spaces, with any white space around, split into the first word and the others joined by single spaces |
| Auth.RejoinJoins | src/routes/auth.routes.js:14-15 | the halves, rejoined with one space, are the words of the trimmed name joined by single spaces |
| Auth.SplitJoined | src/routes/auth.routes.js:11-16 | words joined by single spaces split into the first word and the rest joined again; no words split into two empty halves |
| Auth.SplitRejoin | src/routes/auth.routes.js:11-16 | splitting the rejoined halves gives the same halves |
| Auth.NewAccount | src/routes/auth.routes.js:33-37 | registration hands `createUser` the split name, the email, the digest and the role `'Usuário'` |
| Auth.RegisterCatch | src/routes/auth.routes.js:42-47 | the error handler answers 409 exactly for a unique violation (SQLSTATE 23505) and 500 for anything else |
| Auth.DeleteDigestOfSafe | src/routes/auth.routes.js:40 | deleting the digest from a safe-projected user changes nothing |
| Auth.Enroll | src/routes/auth.routes.js:33-47 | the reply is 201 exactly when the insert succeeds, and then carries the new user without a digest; otherwise nothing is written and an error is sent |
| Auth.Register | src/routes/auth.routes.js:20-48 | 400 exactly when a field is missing or empty, before any lookup; 500 on a fault; only a 201 writes, appending one row, and it returns the user without a digest |
| Auth.AccountMatches | src/routes/auth.routes.js:27-37 | the row a registration appends matches the given email |
| Auth.RegisterNoLateConflict | src/routes/auth.routes.js:42-45 | after a lookup that finds no user with the email, the insert cannot raise the unique violation |
| Auth.RegisterConflict | src/routes/auth.routes.js:27-28 | the reply is 409 exactly when the fields are given, nothing fails, and a user already has the email, ignoring case |
| Auth.AccountColumns | src/routes/auth.routes.js:30-37 | the appended row holds the split name, the email, the digest and the role `'Usuário'` |
| Auth.RegisterEnrolls | src/routes/auth.routes.js:27-37 | with every field given and no user with the email, registration is the insert and its reply |
| Auth.EnrollOk | src/routes/auth.routes.js:33-41 | a successful insert appends the row and answers 201 with it safe-projected |
| Auth.EnrollAccount | src/routes/auth.routes.js:33-41 | with no user holding the email, the insert appends the account row and answers 201 with it |
| Auth.RegisterStores | src/routes/auth.routes.js:20-41 | a registration with every field given and a new email appends the account row and answers 201 with it safe-projected |
| Auth.RegisterTwice | src/routes/auth.routes.js:27-28 | registering again with the same email, in any letter case, is refused with 409 and writes nothing |
| Auth.RegisterKeepsValid | src/routes/auth.routes.js:33-37 | registration keeps the user store invariant |
| Auth.Login | src/routes/auth.routes.js:51-71 | 400 exactly when the email or password is missing; 500 on a fault; every other failure carries an error body, and a user in a 200 body has no digest |
| Auth.LoginFailuresAlike | src/routes/auth.routes.js:58-62 | an unknown email and a wrong password both give the same 401 reply, and nothing else gives 401 |
| Auth.LoginReturnsMatch | src/routes/auth.routes.js:58-66 | a 200 returns the `getUserById` row of the first user whose email matches and whose digest the password matches |
| Auth.RequestReset | src/routes/auth.routes.js:74-86 | 400 exactly when the email is missing; otherwise 200 with the notice |
| Auth.RequestResetUniform | src/routes/auth.routes.js:77-81 | every given email gets the same reply, so the reply does not tell whether an account exists |

## Left out

- `getProjects` (`ORDER BY created_at DESC LIMIT $1 OFFSET $2`, with defaults 50 and 0) and `getServerTime`: the clock is a parameter (`now`), and the paginated listing adds ordering by time and pagination.
- `src/infra/db.js`, `src/server.js`, `src/routes/perfil.routes.js` and `src/routes/projects.routes.js` are not part of this model. They hold connection set-up, server wiring, and thin handlers with no logic beyond the repositories.
- SQL execution itself: tables are sequences of rows with generated ids; `NOW()` is the `now` parameter.
- Transactions and concurrency: `replaceMembers` is modelled with its intended all-or-nothing effect. BEGIN and COMMIT sent through a pool may not share a connection. A failure after COMMIT, while re-reading the members, is not modelled.
- Storage and connection failures are a `fault` flag where a handler answers them (register, login, `replaceMembers`); elsewhere they are not modelled.
- bcrypt is a parameter: the digest a registration stores, and a `matches` predicate for `bcrypt.compare`.
- JavaScript loose typing: body fields are strings or absent, and progress and ids are integers. Other JSON types in a request body are not modelled, nor is the coercion `<` applies to non-numbers.
- A stored digest that is not text is read as `''`, as `user.senha_hash || ''` does for null.
- The reset-request handler's 500 branch: nothing in its `try` block can throw.
- The database schema is not in the source. The user store has a unique constraint on the lower-cased email, which is what the `23505` handling relies on. `manager_id` is treated as a required foreign key to users, so a missing or null manager fails a create. The model files that missing or null manager under `ForeignKeyViolation` (23503), whereas PostgreSQL reports a NULL in a NOT NULL column as 23502. The routes answer 400 with the message either way. `project_members` is taken to be unique on `(project_id, user_id)` and to have foreign keys to projects and users. `Membership.InsertFailure` and `Membership.ReplaceMembers` rely on these constraints, and on the database reporting the unique violation before the foreign key.
- `createProject` (src/repositories/projects.repository.js:55-78) never checks `progress_pct`, while `updateProject` rejects values outside 0..100 (src/repositories/projects.repository.js:90). `ProjectFacts.CreateProjectKeepsProgress` states this.
- Text.Lower: folds only the ASCII letters A to Z, because the Unicode case mapping of PostgreSQL's `LOWER` depends on the collation.
- Projects.GetMembers, Projects.ViewsAllKnown, Membership.ReplaceMembersListsAll: do not model `ORDER BY name`; members come in stored order. `Membership.ReplaceMembersListsEach` states what holds in any order.
- Search.SearchUsersByName: does not model `ORDER BY nome, sobrenome`; matches come in id order, so the limit keeps the first matches in that order.
- Search.SearchSound, Search.SearchComplete: stated only for queries free of `%`, `_` and backslash. With those characters the pattern is no longer a substring test; `Like.Like` still models that case.
- Projects.FullName: a missing name column reads as NULL, as a NULL column would.
- Users.DeleteUser: foreign keys are not checked on delete, so the deletion always succeeds. Deleting a user that manages a project or belongs to one leaves dangling references, and `ManagersExist` is not preserved. How the database reacts depends on the `ON DELETE` action in a schema that is not in the source: it could refuse with 23503 or cascade.
- Projects.DeleteProject: for the same reason, the project's memberships stay in the store after the project is deleted, although a new insert for that project id fails its foreign key.

=== FILE: auth.dfy ===
/**
 The authentication routes: registration, login and the password reset
 request. A handler reads string fields from the request body, answers 400
 when a required one is missing or empty, and otherwise talks to the user
 repository. Password hashing and checking (bcrypt) are parameters: the
 digest a registration stores, and the predicate that tells whether a
 password matches a digest.
 */
module Auth {
  import opened Values
  import opened Text
  import opened Tables
  import opened Users

  /** A body field as the handlers see it: a string, or `None` when it is absent. */
  type Field = Option<string>

  /** JavaScript truthiness of a string field: present and not empty. */
  predicate Present(f: Field) {
    f.Some? && f.value != ""
  }

  /** The two halves `splitFullName` produces. */
  datatype Name = Name(nome: string, sobrenome: string)

  /** `splitFullName(full)`: the first white-space-separated word of the
      trimmed input, and the remaining words joined by single spaces. A blank
      input gives two empty strings. */
  function SplitFullName(full: string): (n: Name)
    ensures NoSpace(n.nome)
    ensures n.nome == "" ==> n.sobrenome == ""
    ensures var t := Trim(full); t != [] ==> n.nome == t[..RunLength(t)]
  {
    var ws := Words(Trim(full));
    if ws == [] then Name("", "") else Name(ws[0], Join(ws[1..], " "))
  }

  /** The name put back together with a single space between the halves. */
  function Rejoin(n: Name): string {
    if n.sobrenome == "" then n.nome else n.nome + " " + n.sobrenome
  }

  /** The first name is empty exactly when the input is blank. */
  lemma SplitBlank(full: string)
    ensures SplitFullName(full).nome == "" <==> AllSpace(full)
  {
    TrimBlank(full);
    var t := Trim(full);
    if t != [] {
      assert Words(t) == [t[..RunLength(t)]] + Words(t[RunLength(t)..]);
      assert Words(t)[0] in Words(t);
    }
  }

  /** Splitting loses white space only: the two halves, run together without
      white space, carry the non-white-space characters of the input in order. */
  lemma SplitKeepsText(full: string)
    ensures var n := SplitFullName(full);
            Squeeze(n.nome + n.sobrenome) == Squeeze(full)
  {
    var ws := Words(Trim(full));
    TrimKeepsText(full);
    WordsKeepText(Trim(full));
    if ws != [] {
      var n := SplitFullName(full);
      assert forall w :: w in ws[1..] ==> w in ws;
      SqueezeJoin(ws[1..]);
      SqueezeAppend(n.nome, n.sobrenome);
      SqueezeNoSpace(n.nome);
    }
  }

  /** Words joined by single spaces, with any white space around them, split
      into the first word and the rest joined again. */
  lemma SplitOfJoin(pre: string, ws: seq<string>, post: string)
    requires AllSpace(pre) && AllSpace(post)
    requires ws != [] && forall w :: w in ws ==> w != [] && NoSpace(w)
    ensures SplitFullName(pre + Join(ws, " ") + post) == Name(ws[0], Join(ws[1..], " "))
  {
    JoinBorders(ws);
    TrimPadded(pre, Join(ws, " "), post);
    WordsOfJoin(ws);
  }

  /** Rejoining the halves gives the words of the trimmed name, one space apart. */
  lemma RejoinJoins(full: string)
    ensures Rejoin(SplitFullName(full)) == Join(Words(Trim(full)), " ")
  {
    var ws := Words(Trim(full));
    if |ws| > 1 {
      assert ws[1..][0] in ws;
      assert forall w :: w in ws[1..] ==> w in ws;
      JoinBorders(ws[1..]);
    }
  }

  /** Words joined by single spaces split into the first word and the rest
      joined again; no words split into two empty halves. */
  lemma SplitJoined(ws: seq<string>)
    requires forall w :: w in ws ==> w != [] && NoSpace(w)
    ensures SplitFullName(Join(ws, " ")) == if ws == [] then Name("", "") else Name(ws[0], Join(ws[1..], " "))
  {
    if ws == [] {
      assert Trim("") == "";
    } else {
      SplitOfJoin("", ws, "");
      assert "" + Join(ws, " ") + "" == Join(ws, " ");
    }
  }

  /** Splitting the rejoined halves gives the same halves: a name that went
      through `splitFullName` once is split the same way again. */
  lemma SplitRejoin(full: string)
    ensures SplitFullName(Rejoin(SplitFullName(full))) == SplitFullName(full)
  {
    RejoinJoins(full);
    SplitJoined(Words(Trim(full)));
  }

  /** The body of a reply. */
  datatype Body =
    | Error(error: string)
    | User(user: Row)
    | MaybeUser(found: Option<Row>)
    | Notice(message: string)

  /** An HTTP reply: status code and JSON body. */
  datatype Reply = Reply(status: nat, body: Body)

  const RegisterRequired: string := "nomeCompleto, email e senha são obrigatórios."
  const EmailTaken: string := "E-mail já cadastrado."
  const RegisterFailed: string := "Erro ao registrar."
  const LoginRequired: string := "email e senha são obrigatórios."
  const BadCredentials: string := "Credenciais inválidas."
  const LoginFailed: string := "Erro ao autenticar."
  const ResetRequired: string := "email é obrigatório."
  const ResetNotice: string := "Se existir uma conta com este e-mail, enviaremos instruções de recuperação."

  /** The role every self-registered user gets. */
  const RegisteredCargo: string := "Usuário"

  /** The data object registration hands to `createUser`. */
  function NewAccount(n: Name, email: string, digest: string): (data: Payload)
    ensures Get(data, "nome") == Str(n.nome) && Get(data, "sobrenome") == Str(n.sobrenome)
    ensures Get(data, "email") == Str(email) && Get(data, Digest) == Str(digest)
    ensures Get(data, "cargo") == Str(RegisteredCargo)
  {
    var p := [Entry("nome", Str(n.nome)), Entry("sobrenome", Str(n.sobrenome)), Entry("email", Str(email)),
              Entry(Digest, Str(digest)), Entry("cargo", Str(RegisteredCargo))];
    assert p[0] in p && p[1] in p && p[2] in p && p[3] in p && p[4] in p;
    p
  }

  /** The reply of the registration's error handler: a unique violation is a
      taken email, anything else a server error. */
  function RegisterCatch(f: Failure): (r: Reply)
    ensures r.status == 409 <==> f == UniqueViolation
    ensures r.status != 409 ==> r == Reply(500, Error(RegisterFailed))
  {
    if SqlState(f) == "23505" then Reply(409, Error(EmailTaken)) else Reply(500, Error(RegisterFailed))
  }

  /** Removing the digest from a safe-projected row changes nothing. */
  lemma DeleteDigestOfSafe(r: Row)
    ensures Row(Safe(r).id, Safe(r).cols - {Digest}) == Safe(r)
  {
    assert Safe(r).cols - {Digest} == Safe(r).cols;
  }

  /** The insert of a registration and its error handler: `createUser`, the
      `delete` of the digest from what it returns, and the reply. */
  function Enroll(t: Table, data: Payload, now: Value): (r: (Table, Reply))
    ensures r.1.status in {201, 409, 500}
    ensures r.1.status == 201 <==> CreateUser(t, data, now).Ok?
    ensures r.1.status != 201 ==> r.0 == t && r.1.body.Error?
    ensures CreateUser(t, data, now).Ok? ==>
              r.0 == Table(t.rows + [Row(t.nextId, NewUserColumns(data, now))], t.nextId + 1)
    ensures CreateUser(t, data, now).Ok? ==> r.1 == Reply(201, User(Safe(Row(t.nextId, NewUserColumns(data, now)))))
    ensures r.1.status == 201 ==> r.1.body.User? && Digest !in r.1.body.user.cols
  {
    match CreateUser(t, data, now)
    case Err(f) => (t, RegisterCatch(f))
    case Ok((t', user)) =>
      DeleteDigestOfSafe(Row(t.nextId, NewUserColumns(data, now)));
      (t', Reply(201, User(Row(user.id, user.cols - {Digest}))))
  }

  /** `POST /auth/register`. `digest` is what bcrypt produced for the
      password; `fault` stands for a failure of the database or of bcrypt at
      any step, which the handler answers with 500. Only a 201 writes. */
  function Register(t: Table, nomeCompleto: Field, email: Field, senha: Field, digest: string, now: Value, fault: bool)
    : (r: (Table, Reply))
    ensures r.1.status in {201, 400, 409, 500}
    ensures r.1.status == 400 <==> !(Present(nomeCompleto) && Present(email) && Present(senha))
    ensures r.1.status == 500 <==> Present(nomeCompleto) && Present(email) && Present(senha) && fault
    ensures r.1.status != 201 ==> r.0 == t && r.1.body.Error?
    ensures r.1.status == 201 ==>
              && r.1.body.User?
              && Digest !in r.1.body.user.cols
              && |r.0.rows| == |t.rows| + 1 && r.0.rows[..|t.rows|] == t.rows
  {
    if !(Present(nomeCompleto) && Present(email) && Present(senha)) then (t, Reply(400, Error(RegisterRequired)))
    else if fault then (t, Reply(500, Error(RegisterFailed)))
    else if GetUserByEmailWithHash(t, email.value).Some? then (t, Reply(409, Error(EmailTaken)))
    else
      var r := Enroll(t, NewAccount(SplitFullName(nomeCompleto.value), email.value, digest), now);
      assert r.1.status == 201 ==> r.0.rows == t.rows + [r.0.rows[|t.rows|]];
      r
  }

  /** The row registration would append. */
  function Account(t: Table, nomeCompleto: string, email: string, digest: string, now: Value): Row {
    Row(t.nextId, NewUserColumns(NewAccount(SplitFullName(nomeCompleto), email, digest), now))
  }

  /** The row a registration appends has the email matching the one given. */
  lemma AccountMatches(t: Table, nomeCompleto: string, email: string, digest: string, now: Value)
    ensures EmailMatches(Account(t, nomeCompleto, email, digest, now), email)
  {
    var data := NewAccount(SplitFullName(nomeCompleto), email, digest);
    assert "email" in InsertColumns;
    assert NewUserColumns(data, now)["email"] == Str(email);
  }

  /** The unique violation the error handler checks for cannot happen after
      the pre-check: when no user has the email, ignoring case, the insert
      does not clash. */
  lemma RegisterNoLateConflict(t: Table, nomeCompleto: string, email: string, digest: string, now: Value)
    requires GetUserByEmailWithHash(t, email).None?
    ensures CreateUser(t, NewAccount(SplitFullName(nomeCompleto), email, digest), now).Ok?
  {
    var row := Account(t, nomeCompleto, email, digest, now);
    AccountMatches(t, nomeCompleto, email, digest, now);
    assert !Clashes(t.rows, row) by {
      forall j | 0 <= j < |t.rows| && EmailKey(t.rows[j]).Some?
        ensures EmailKey(t.rows[j]) != EmailKey(row)
      {
        assert !EmailMatches(t.rows[j], email);
      }
    }
  }

  /** A registration is refused as a taken email exactly when the fields
      are given, nothing fails, and a user already has the email, ignoring case. */
  lemma RegisterConflict(t: Table, nomeCompleto: Field, email: Field, senha: Field, digest: string, now: Value,
                         fault: bool)
    ensures Register(t, nomeCompleto, email, senha, digest, now, fault).1.status == 409 <==>
              && Present(nomeCompleto) && Present(email) && Present(senha) && !fault
              && GetUserByEmailWithHash(t, email.value).Some?
  {
    if Present(nomeCompleto) && Present(email) && Present(senha) && !fault
       && GetUserByEmailWithHash(t, email.value).None? {
      RegisterNoLateConflict(t, nomeCompleto.value, email.value, digest, now);
    }
  }

  /** The row a registration appends holds the split name, the email, the
      digest and the role `'Usuário'`. */
  lemma AccountColumns(t: Table, nomeCompleto: string, email: string, digest: string, now: Value)
    ensures var cols := Account(t, nomeCompleto, email, digest, now).cols;
            "nome" in cols && "sobrenome" in cols && "email" in cols && Digest in cols && "cargo" in cols
    ensures var row := Account(t, nomeCompleto, email, digest, now);
            var n := SplitFullName(nomeCompleto);
            && row.cols["nome"] == Str(n.nome) && row.cols["sobrenome"] == Str(n.sobrenome)
            && row.cols["email"] == Str(email) && row.cols[Digest] == Str(digest)
            && row.cols["cargo"] == Str(RegisteredCargo)
  {
    TimestampsNotInserted();
    assert "nome" in InsertColumns && "sobrenome" in InsertColumns && "email" in InsertColumns;
  }

  /** Once the fields are given and no user has the email, registration is
      the insert and its reply. */
  lemma RegisterEnrolls(t: Table, nomeCompleto: Field, email: Field, senha: Field, digest: string, now: Value)
    requires Present(nomeCompleto) && Present(email) && Present(senha)
    requires GetUserByEmailWithHash(t, email.value).None?
    ensures Register(t, nomeCompleto, email, senha, digest, now, false)
            == Enroll(t, NewAccount(SplitFullName(nomeCompleto.value), email.value, digest), now)
  {
  }

  /** A successful insert appends the new row and answers 201 with it safe-projected. */
  lemma EnrollOk(t: Table, data: Payload, now: Value)
    requires CreateUser(t, data, now).Ok?
    ensures var row := Row(t.nextId, NewUserColumns(data, now));
            Enroll(t, data, now).0 == Table(t.rows + [row], t.nextId + 1)
            && Enroll(t, data, now).1 == Reply(201, User(Safe(row)))
  {
  }

  /** With no user holding the email, the insert of a registration appends
      the account row and answers 201 with it safe-projected. */
  lemma EnrollAccount(t: Table, nomeCompleto: string, email: string, digest: string, now: Value)
    requires GetUserByEmailWithHash(t, email).None?
    ensures var row := Account(t, nomeCompleto, email, digest, now);
            var e := Enroll(t, NewAccount(SplitFullName(nomeCompleto), email, digest), now);
            e.0 == Table(t.rows + [row], t.nextId + 1) && e.1 == Reply(201, User(Safe(row)))
  {
    var data := NewAccount(SplitFullName(nomeCompleto), email, digest);
    RegisterNoLateConflict(t, nomeCompleto, email, digest, now);
    EnrollOk(t, data, now);
  }

  /** A registration with every field given, no failure and an email no user
      has, ignoring case, appends the account row and answers 201 with it
      safe-projected, without its digest. */
  lemma RegisterStores(t: Table, nomeCompleto: string, email: string, senha: string, digest: string, now: Value)
    requires nomeCompleto != "" && email != "" && senha != ""
    requires GetUserByEmailWithHash(t, email).None?
    ensures var row := Account(t, nomeCompleto, email, digest, now);
            Register(t, Some(nomeCompleto), Some(email), Some(senha), digest, now, false)
              == (Table(t.rows + [row], t.nextId + 1), Reply(201, User(Safe(row))))
  {
    assert Present(Some(nomeCompleto)) && Present(Some(email)) && Present(Some(senha));
    RegisterEnrolls(t, Some(nomeCompleto), Some(email), Some(senha), digest, now);
    EnrollAccount(t, nomeCompleto, email, digest, now);
  }

  /** Registering again with the same email, in any letter case, is refused
      as a taken email and writes nothing. */
  lemma RegisterTwice(t: Table, nomeCompleto: string, email: string, senha: string, digest: string, now: Value,
                      nome2: Field, email2: Field, senha2: Field, digest2: string, now2: Value)
    requires nomeCompleto != "" && email != "" && senha != ""
    requires GetUserByEmailWithHash(t, email).None?
    requires Present(nome2) && Present(email2) && Present(senha2)
    requires Lower(email2.value) == Lower(email)
    ensures var t' := Register(t, Some(nomeCompleto), Some(email), Some(senha), digest, now, false).0;
            Register(t', nome2, email2, senha2, digest2, now2, false) == (t', Reply(409, Error(EmailTaken)))
  {
    var t' := Register(t, Some(nomeCompleto), Some(email), Some(senha), digest, now, false).0;
    RegisterStores(t, nomeCompleto, email, senha, digest, now);
    AccountMatches(t, nomeCompleto, email, digest, now);
    assert EmailMatches(t'.rows[|t.rows|], email2.value);
  }

  /** A registration that succeeds keeps the user store valid. */
  lemma RegisterKeepsValid(t: Table, nomeCompleto: Field, email: Field, senha: Field, digest: string, now: Value,
                           fault: bool)
    requires Users.Valid(t)
    ensures Users.Valid(Register(t, nomeCompleto, email, senha, digest, now, fault).0)
  {
    if Present(nomeCompleto) && Present(email) && Present(senha) && !fault {
      CreateUserKeepsValid(t, NewAccount(SplitFullName(nomeCompleto.value), email.value, digest), now);
    }
  }

  /** The digest text login compares against: `user.senha_hash || ''`. */
  function StoredDigest(u: Row): string {
    if Digest in u.cols && u.cols[Digest].Str? then u.cols[Digest].s else ""
  }

  /** `POST /auth/login`. `matches(senha, digest)` stands for
      `bcrypt.compare`; `fault` for a failure of the database or of bcrypt. */
  function Login(t: Table, email: Field, senha: Field, matches: (string, string) -> bool, fault: bool): (r: Reply)
    ensures r.status in {200, 400, 401, 500}
    ensures r.status == 400 <==> !(Present(email) && Present(senha))
    ensures r.status == 500 <==> Present(email) && Present(senha) && fault
    ensures r.status != 200 ==> r.body.Error?
    ensures r.status == 200 ==> r.body.MaybeUser? && (r.body.found.Some? ==> Digest !in r.body.found.value.cols)
  {
    if !(Present(email) && Present(senha)) then Reply(400, Error(LoginRequired))
    else if fault then Reply(500, Error(LoginFailed))
    else
      match GetUserByEmailWithHash(t, email.value)
      case None => Reply(401, Error(BadCredentials))
      case Some(u) =>
        if !matches(senha.value, StoredDigest(u)) then Reply(401, Error(BadCredentials))
        else Reply(200, MaybeUser(GetUserById(t, u.id)))
  }

  /** Login fails with one and the same reply whether the email is unknown or
      the password is wrong, so the reply does not tell which. */
  lemma LoginFailuresAlike(t: Table, email: Field, senha: Field, matches: (string, string) -> bool)
    requires Present(email) && Present(senha)
    ensures var r := Login(t, email, senha, matches, false);
            var u := GetUserByEmailWithHash(t, email.value);
            && (r.status == 401 <==> u.None? || !matches(senha.value, StoredDigest(u.value)))
            && (r.status == 401 ==> r == Reply(401, Error(BadCredentials)))
  {
  }

  /** A successful login returns the safe row of the first user whose email
      matches, ignoring case, and whose digest the password matches. */
  lemma LoginReturnsMatch(t: Table, email: Field, senha: Field, matches: (string, string) -> bool)
    requires Tables.Valid(t)
    requires Login(t, email, senha, matches, false).status == 200
    ensures exists i :: 0 <= i < |t.rows|
              && EmailMatches(t.rows[i], email.value)
              && (forall j :: 0 <= j < i ==> !EmailMatches(t.rows[j], email.value))
              && matches(senha.value, StoredDigest(t.rows[i]))
              && Login(t, email, senha, matches, false) == Reply(200, MaybeUser(Some(Safe(t.rows[i]))))
  {
    var i := FirstEmailMatch(t.rows, email.value).value;
    var u := GetUserByEmailWithHash(t, email.value).value;
    assert u == Select(t.rows[i], AuthFields);
    assert StoredDigest(u) == StoredDigest(t.rows[i]);
    LookupAt(t, i);
  }

  /** `POST /auth/request-reset`: a placeholder that never reads the store. */
  function RequestReset(email: Field): (r: Reply)
    ensures r.status == 400 <==> !Present(email)
    ensures r.status != 400 ==> r.status == 200 && r.body.Notice?
  {
    if !Present(email) then Reply(400, Error(ResetRequired)) else Reply(200, Notice(ResetNotice))
  }

  /** The reset reply is the same for every given email, so it does not tell
      whether an account exists. */
  lemma RequestResetUniform(a: Field, b: Field)
    requires Present(a) && Present(b)
    ensures RequestReset(a) == RequestReset(b)
  {
  }
}

=== FILE: like.dfy ===
/**
 SQL's LIKE pattern matching, as used by the user name search: `%` matches
 any run of characters, `_` any single character, and a backslash (the
 default escape) makes the next pattern character literal.
 */
module Like {

  /** Whether `s` matches the whole pattern `p`. A pattern ending in a lone
      escape character matches nothing. */
  predicate Like(s: string, p: string)
    decreases |s| + |p|
  {
    if p == [] then s == []
    else if p[0] == '%' then Like(s, p[1..]) || (s != [] && Like(s[1..], p))
    else if p[0] == '_' then s != [] && Like(s[1..], p[1..])
    else if p[0] == '\\' then |p| >= 2 && s != [] && s[0] == p[1] && Like(s[1..], p[2..])
    else s != [] && s[0] == p[0] && Like(s[1..], p[1..])
  }

  /** `t` contains none of the characters LIKE treats specially. */
  predicate Literal(t: string) {
    forall i :: 0 <= i < |t| ==> t[i] != '%' && t[i] != '_' && t[i] != '\\'
  }

  /** `t` occurs in `s` as a contiguous piece. */
  ghost predicate Contains(s: string, t: string) {
    exists i :: 0 <= i <= |s| && t <= s[i..]
  }

  lemma {:induction false} LikeAny(s: string)
    ensures Like(s, "%")
    decreases |s|
  {
    if s != [] {
      LikeAny(s[1..]);
    }
  }

  /** With a literal `t`, the pattern `t%` matches exactly the strings that start with `t`. */
  lemma {:induction false} LikePrefix(s: string, t: string)
    requires Literal(t)
    ensures Like(s, t + "%") <==> t <= s
    decreases |t|
  {
    if t == [] {
      assert t + "%" == "%";
      LikeAny(s);
    } else {
      assert (t + "%")[0] == t[0];
      assert (t + "%")[1..] == t[1..] + "%";
      if s != [] {
        LikePrefix(s[1..], t[1..]);
      }
    }
  }

  /** A leading `%` lets the rest of the pattern match any suffix. */
  lemma {:induction false} LikeLeading(s: string, r: string)
    ensures Like(s, "%" + r) <==> exists i :: 0 <= i <= |s| && Like(s[i..], r)
    decreases |s|
  {
    var p := "%" + r;
    assert p[1..] == r;
    assert s[0..] == s;
    if s == [] {
    } else {
      LikeLeading(s[1..], r);
      if Like(s[1..], p) {
        var i :| 0 <= i <= |s[1..]| && Like(s[1..][i..], r);
        assert s[1..][i..] == s[i + 1..];
      }
      if exists i :: 0 <= i <= |s| && Like(s[i..], r) {
        var i :| 0 <= i <= |s| && Like(s[i..], r);
        if i > 0 {
          assert s[1..][i - 1..] == s[i..];
        }
      }
    }
  }

  /** The search pattern `%t%` with a literal `t` matches exactly the strings containing `t`. */
  lemma LikeContains(s: string, t: string)
    requires Literal(t)
    ensures Like(s, "%" + t + "%") <==> Contains(s, t)
  {
    assert "%" + t + "%" == "%" + (t + "%");
    LikeLeading(s, t + "%");
    forall i | 0 <= i <= |s| ensures Like(s[i..], t + "%") <==> t <= s[i..] {
      LikePrefix(s[i..], t);
    }
  }
}

=== FILE: members.dfy ===
/**
 Membership replacement (`replaceMembers`): inside one transaction, delete
 every membership of the project, then insert one row per user id with a
 single bulk INSERT whose VALUES list is generated as
 `($1, $2, $n+2), ($1, $3, $n+2), ...` over the parameters
 `[project_id, ...user_ids, role]`. Any failure rolls the transaction back.
 */
module Membership {
  import opened Values
  import opened Tables
  import opened Projects

  /** One `($p, $u, $r)` tuple of the VALUES list: the 1-based placeholders
      of the project id, the user id and the role. */
  datatype Tuple = Tuple(project: nat, user: nat, role: nat)

  /** `INSERT INTO project_members (project_id, user_id, role) VALUES <tuples>`
      with its parameter list. */
  datatype BulkInsert = BulkInsert(tuples: seq<Tuple>, params: seq<Value>)

  /** A row the database reads from the statement. */
  datatype Inserted = Inserted(project: Value, user: Value, role: Value)

  /** Every placeholder names a parameter. */
  predicate InRange(b: BulkInsert) {
    forall k :: 0 <= k < |b.tuples| ==>
      && 1 <= b.tuples[k].project <= |b.params|
      && 1 <= b.tuples[k].user <= |b.params|
      && 1 <= b.tuples[k].role <= |b.params|
  }

  /** The rows the statement inserts: each tuple with its placeholders
      replaced by the parameters they designate. */
  function Rows(b: BulkInsert): (rs: seq<Inserted>)
    requires InRange(b)
    ensures |rs| == |b.tuples|
  {
    seq(|b.tuples|, k requires 0 <= k < |b.tuples| =>
      Inserted(b.params[b.tuples[k].project - 1], b.params[b.tuples[k].user - 1], b.params[b.tuples[k].role - 1]))
  }

  /** `user_ids.map((_, i) => `($1, $${i+2}, $${n+2})`)` for `n` user ids:
      every tuple shares the project and role placeholders, and the user
      placeholders are pairwise different. */
  function Tuples(n: nat): (ts: seq<Tuple>)
    ensures |ts| == n
    ensures forall j, k :: 0 <= j < k < n ==> ts[j].user < ts[k].user
    ensures forall j, k :: 0 <= j < n && 0 <= k < n ==> ts[j].project == ts[k].project && ts[j].role == ts[k].role
  {
    seq(n, k requires 0 <= k < n => Tuple(1, k + 2, n + 2))
  }

  /** `[project_id, ...user_ids, role]`. */
  function Params(pid: nat, userIds: seq<nat>, role: string): (ps: seq<Value>)
    ensures |ps| == |userIds| + 2
  {
    [Num(pid)] + seq(|userIds|, k requires 0 <= k < |userIds| => Num(userIds[k])) + [Str(role)]
  }

  /** The bulk insert `replaceMembers` sends. Its placeholders all lie in
      `1..n+2`, and the database reads back one row per user id, in order,
      each with the project id and the role. */
  function BuildBulk(pid: nat, userIds: seq<nat>, role: string): (b: BulkInsert)
    ensures |b.tuples| == |userIds| && |b.params| == |userIds| + 2
    ensures InRange(b)
    ensures forall k :: 0 <= k < |userIds| ==> Rows(b)[k] == Inserted(Num(pid), Num(userIds[k]), Str(role))
  {
    var b := BulkInsert(Tuples(|userIds|), Params(pid, userIds, role));
    assert forall k :: 0 <= k < |userIds| ==> b.params[k + 1] == Num(userIds[k]);
    b
  }

  /** No user id occurs twice. */
  predicate Distinct(userIds: seq<nat>) {
    forall i, j :: 0 <= i < j < |userIds| ==> userIds[i] != userIds[j]
  }

  /** The constraint the bulk insert breaks, if any: a repeated user id
      breaks the uniqueness of the (project, user) pair, an absent project
      or user breaks a foreign key. */
  function InsertFailure(users: Table, projects: Table, pid: nat, userIds: seq<nat>): (r: Option<Failure>)
    ensures r == Some(UniqueViolation) <==> !Distinct(userIds)
    ensures r == Some(ForeignKeyViolation) <==>
              Distinct(userIds)
              && (Lookup(projects, pid).None? || exists u :: u in userIds && Lookup(users, u).None?)
    ensures r.None? || r.value in {UniqueViolation, ForeignKeyViolation}
  {
    if !Distinct(userIds) then Some(UniqueViolation)
    else if Lookup(projects, pid).None? then Some(ForeignKeyViolation)
    else if exists u :: u in userIds && Lookup(users, u).None? then Some(ForeignKeyViolation)
    else None
  }

  /** The role the members get: the given one, or `'Membro'`. */
  function RoleOf(role: Option<string>): string {
    match role
    case Some(r) => r
    case None => DefaultRole
  }

  /** The memberships the bulk insert creates, in user id order; `now` is
      the server's timestamp. */
  function Joined(userIds: seq<nat>, role: string, now: Value): (ms: seq<Member>)
    ensures |ms| == |userIds|
    ensures forall k :: 0 <= k < |userIds| ==> ms[k] == Member(userIds[k], role, now)
  {
    seq(|userIds|, k requires 0 <= k < |userIds| => Member(userIds[k], role, now))
  }

  /** `replaceMembers(project_id, user_ids, role)`. `fault` stands for a
      failure of the storage itself during the transaction. On success the
      project's memberships are exactly the new ones and the refreshed list
      is returned; on any failure the transaction is rolled back and the
      database is as it was. */
  function ReplaceMembers(db: Db, pid: nat, userIds: seq<nat>, role: Option<string>, now: Value, fault: bool)
    : (r: (Db, Result<seq<MemberView>>))
    ensures r.1.Err? ==> r.0 == db
    ensures r.1.Err? <==> fault || (|userIds| > 0 && InsertFailure(db.users, db.projects, pid, userIds).Some?)
    ensures r.1.Err? && !fault ==> r.1.failure == InsertFailure(db.users, db.projects, pid, userIds).value
    ensures r.1.Ok? ==>
              && r.0 == db.(members := db.members[pid := Joined(userIds, RoleOf(role), now)])
              && r.1.value == GetMembers(r.0, pid)
  {
    if fault then (db, Err(StorageFault))
    else
      var cleared := db.(members := db.members[pid := []]);
      if |userIds| == 0 then (cleared, Ok(GetMembers(cleared, pid)))
      else
        match InsertFailure(db.users, db.projects, pid, userIds)
        case Some(f) => (db, Err(f))
        case None =>
          var db' := db.(members := db.members[pid := Joined(userIds, RoleOf(role), now)]);
          (db', Ok(GetMembers(db', pid)))
  }

  /** With no user ids and no storage failure the project ends with no
      members, and the refreshed list is empty. */
  lemma ReplaceMembersEmpty(db: Db, pid: nat, role: Option<string>, now: Value)
    ensures var r := ReplaceMembers(db, pid, [], role, now, false);
            && r.1 == Ok([])
            && MembersOf(r.0, pid) == []
            && GetMembers(r.0, pid) == []
  {
  }

  /** Replacement deletes first: on success the outcome does not depend on
      the memberships the project had before. */
  lemma ReplaceMembersForgetsPrior(db: Db, pid: nat, userIds: seq<nat>, role: Option<string>, now: Value,
                                   prior: seq<Member>)
    requires ReplaceMembers(db, pid, userIds, role, now, false).1.Ok?
    ensures ReplaceMembers(db.(members := db.members[pid := prior]), pid, userIds, role, now, false).0
            == ReplaceMembers(db, pid, userIds, role, now, false).0
    ensures ReplaceMembers(db.(members := db.members[pid := prior]), pid, userIds, role, now, false).1
            == ReplaceMembers(db, pid, userIds, role, now, false).1
  {
    if |userIds| == 0 {
      Overwrite(db, pid, prior, []);
    } else {
      Overwrite(db, pid, prior, Joined(userIds, RoleOf(role), now));
    }
  }

  /** Setting a project's memberships twice keeps only the second setting. */
  lemma Overwrite(db: Db, pid: nat, prior: seq<Member>, ms: seq<Member>)
    ensures var db2 := db.(members := db.members[pid := prior]);
            && db2.users == db.users && db2.projects == db.projects
            && db2.(members := db2.members[pid := ms]) == db.(members := db.members[pid := ms])
  {
    assert db.members[pid := prior][pid := ms] == db.members[pid := ms];
  }

  /** Only the project's own memberships change; the users, the projects and
      every other project's memberships stay as they were. */
  lemma ReplaceMembersLocal(db: Db, pid: nat, userIds: seq<nat>, role: Option<string>, now: Value, fault: bool,
                            q: nat)
    requires q != pid
    ensures var r := ReplaceMembers(db, pid, userIds, role, now, fault);
            && r.0.users == db.users && r.0.projects == db.projects
            && MembersOf(r.0, q) == MembersOf(db, q)
  {
  }

  /** A successful replacement returns one entry per user id, in the given
      order, each with the user's name and the role. */
  lemma ReplaceMembersListsAll(db: Db, pid: nat, userIds: seq<nat>, role: Option<string>, now: Value)
    requires ReplaceMembers(db, pid, userIds, role, now, false).1.Ok?
    ensures var vs := ReplaceMembers(db, pid, userIds, role, now, false).1.value;
            && |vs| == |userIds|
            && forall k :: 0 <= k < |userIds| ==>
                 && vs[k].userId == userIds[k]
                 && vs[k].role == RoleOf(role)
                 && vs[k].name == FullName(Lookup(db.users, userIds[k]).value)
  {
    var r := ReplaceMembers(db, pid, userIds, role, now, false);
    var ms := Joined(userIds, RoleOf(role), now);
    if |userIds| > 0 {
      assert MembersOf(r.0, pid) == ms;
      forall m | m in ms ensures Lookup(db.users, m.userId).Some? {
        var k :| 0 <= k < |ms| && ms[k] == m;
        assert userIds[k] in userIds;
      }
      ViewsAllKnown(db.users, ms);
    }
  }

  /** Whatever order the refreshed list comes in, a successful replacement
      lists each given user id exactly once, with the user's full name and
      the role, and lists no other user. */
  lemma ReplaceMembersListsEach(db: Db, pid: nat, userIds: seq<nat>, role: Option<string>, now: Value)
    requires ReplaceMembers(db, pid, userIds, role, now, false).1.Ok?
    ensures var vs := ReplaceMembers(db, pid, userIds, role, now, false).1.value;
            && |vs| == |userIds|
            && Distinct(userIds)
            && (forall v :: v in vs ==> v.userId in userIds)
            && forall u :: u in userIds ==>
                 exists v :: v in vs && v.userId == u && v.role == RoleOf(role)
                             && v.name == FullName(Lookup(db.users, u).value)
  {
    var vs := ReplaceMembers(db, pid, userIds, role, now, false).1.value;
    ReplaceMembersListsAll(db, pid, userIds, role, now);
    forall v | v in vs ensures v.userId in userIds {
      var k :| 0 <= k < |vs| && vs[k] == v;
    }
    forall u | u in userIds
      ensures exists v :: v in vs && v.userId == u && v.role == RoleOf(role)
                          && v.name == FullName(Lookup(db.users, u).value)
    {
      var k :| 0 <= k < |userIds| && userIds[k] == u;
      assert vs[k] in vs;
    }
  }

  /** The memberships a successful replacement stores are the rows the bulk
      insert makes the database read: the k-th carries the project id, the
      k-th user id and the role. */
  lemma ReplaceMembersStoresBulk(db: Db, pid: nat, userIds: seq<nat>, role: Option<string>, now: Value)
    requires ReplaceMembers(db, pid, userIds, role, now, false).1.Ok?
    ensures var ms := MembersOf(ReplaceMembers(db, pid, userIds, role, now, false).0, pid);
            var rows := Rows(BuildBulk(pid, userIds, RoleOf(role)));
            && |ms| == |rows|
            && forall k :: 0 <= k < |ms| ==>
                 rows[k] == Inserted(Num(pid), Num(ms[k].userId), Str(ms[k].role)) && ms[k].addedAt == now
  {
  }
}

=== FILE: project_facts.dfy ===
/**
 What the project repository guarantees: the validation of an update and
 when it fires, the effect of an accepted update, the defaults and checks of
 a create, and the manager invariant all writes keep.
 */
module ProjectFacts {
  import opened Values
  import opened Tables
  import SetClause
  import opened Projects

  /** A status, priority or progress among the data that `updateProject` rejects. */
  predicate Offending(data: Payload) {
    || (Get(data, "status") != Undefined && !StatusOk(Get(data, "status")))
    || (Get(data, "priority") != Undefined && !PriorityOk(Get(data, "priority")))
    || ProgressOutOfRange(Get(data, "progress_pct"))
  }

  /** With no allowed, defined entry in the data, `updateProject` writes
      nothing and is `getProjectById`. */
  lemma UpdateProjectEmpty(db: Db, id: nat, data: Payload)
    requires forall k :: k in AllowedUpdateFields ==> Get(data, k) == Undefined
    ensures UpdateProject(db, id, data) == Ok((db, GetProjectById(db, id)))
  {
    var kept := SetClause.Filter(AllowedUpdateFields, data);
    SetClause.FilterKeys(AllowedUpdateFields, data);
    assert forall j :: 0 <= j < |kept| ==> HasKey(kept, kept[j].key);
  }

  /** Valid data for an absent id changes nothing and yields null. */
  lemma UpdateProjectAbsent(db: Db, id: nat, data: Payload)
    requires Lookup(db.projects, id).None?
    requires !Offending(data)
    ensures UpdateProject(db, id, data) == Ok((db, None))
  {
    UpdateProjectRejects(db, id, data);
  }

  /** The validation loop finds an offending entry among the kept ones
      exactly when the data carries an offending status, priority or progress. */
  lemma OffendingFails(data: Payload)
    ensures SetClause.Filter(AllowedUpdateFields, data) != [] && FirstFailure(SetClause.Filter(AllowedUpdateFields, data)).Some?
            <==> Offending(data)
  {
    var kept := SetClause.Filter(AllowedUpdateFields, data);
    SetClause.FilterKeys(AllowedUpdateFields, data);
    if Offending(data) {
      var k :=
        if Get(data, "status") != Undefined && !StatusOk(Get(data, "status")) then "status"
        else if Get(data, "priority") != Undefined && !PriorityOk(Get(data, "priority")) then "priority"
        else "progress_pct";
      assert k in AllowedUpdateFields && Get(data, k) != Undefined;
      var e :| e in kept && e.key == k;
      var j :| 0 <= j < |kept| && kept[j] == e;
      assert EntryFailure(kept[j]).Some?;
    } else {
      forall j | 0 <= j < |kept| ensures EntryFailure(kept[j]).None? {
        assert kept[j] in kept;
      }
    }
  }

  /** `updateProject` fails validation exactly when the data carries an
      offending status, priority or progress; validation comes before any
      write, so a rejected update leaves the database as it was. */
  lemma UpdateProjectRejects(db: Db, id: nat, data: Payload)
    ensures var r := UpdateProject(db, id, data);
            r.Err? && r.failure in {InvalidStatus, InvalidPriority, InvalidProgress} <==> Offending(data)
  {
    OffendingFails(data);
  }

  /** A successful update of an existing project performs the partial update
      of its row that the data describes, on that row only, and returns the
      updated row. */
  lemma UpdateProjectEffect(db: Db, id: nat, data: Payload)
    requires Lookup(db.projects, id).Some?
    requires |SetClause.Filter(AllowedUpdateFields, data)| > 0
    ensures var r := UpdateProject(db, id, data);
            var i := Find(db.projects.rows, id).value;
            r.Ok? ==>
              && r.value.1.Some?
              && i < |r.value.0.projects.rows|
              && var cols := r.value.0.projects.rows[i].cols;
                 && r.value.0 == db.(projects := Put(db.projects, i, cols))
                 && r.value.1 == Some(Plain(Select(Row(id, cols), ProjectFields)))
                 && SetClause.PatchedBy(cols, db.projects.rows[i].cols, AllowedUpdateFields, data)
  {
    if FirstFailure(SetClause.Filter(AllowedUpdateFields, data)).None? {
      WriteProjectEffect(db, id, data);
    }
  }

  /** The write half performs the partial update on the row with the id,
      and fails only when the data names a manager. */
  lemma WriteProjectEffect(db: Db, id: nat, data: Payload)
    requires Lookup(db.projects, id).Some?
    ensures var r := WriteProject(db, id, data);
            var i := Find(db.projects.rows, id).value;
            && (r.Err? ==> Get(data, "manager_id") != Undefined)
            && (r.Ok? ==>
                  && r.value.1.Some?
                  && i < |r.value.0.projects.rows|
                  && var cols := r.value.0.projects.rows[i].cols;
                     && r.value.0 == db.(projects := Put(db.projects, i, cols))
                     && r.value.1 == Some(Plain(Select(Row(id, cols), ProjectFields)))
                     && SetClause.PatchedBy(cols, db.projects.rows[i].cols, AllowedUpdateFields, data))
  {
    var kept := SetClause.Filter(AllowedUpdateFields, data);
    SetClause.BuiltUpdateEffect(db.projects, AllowedUpdateFields, data, id);
    SetClause.FilterKeys(AllowedUpdateFields, data);
    var ex := SetClause.Execute(db.projects, SetClause.Build(kept, id));
    var i := Find(db.projects.rows, id).value;
    assert ex.1.Some? && ex.1.value.id == id;
    assert ex.0 == Put(db.projects, i, ex.1.value.cols);
    assert ex.0.rows[i] == ex.1.value;
  }

  /** `createProject` accepts exactly the data whose status and priority
      (after the defaults) are valid and whose manager exists; the progress
      plays no part. */
  lemma CreateProjectAccepts(db: Db, data: Payload, now: Value)
    ensures CreateProject(db, data, now).Ok? <==>
              StatusOk(StatusOf(data)) && PriorityOk(PriorityOf(data))
              && Referenced(db.users, Bound(Get(data, "manager_id"))).Some?
  {
  }

  /** The row `createProject` writes has a valid status and priority. */
  lemma CreatedProjectValid(db: Db, data: Payload, now: Value)
    requires CreateProject(db, data, now).Ok?
    ensures var row := CreateProject(db, data, now).value.1;
            StatusOk(row.cols["status"]) && PriorityOk(row.cols["priority"])
  {
    NewProjectColumnAt(data, now, "status");
    NewProjectColumnAt(data, now, "priority");
  }

  /** Every project's manager is a stored user: what the foreign key on
      `manager_id` guarantees. */
  predicate ManagersExist(db: Db) {
    forall p :: p in db.projects.rows ==> ManagerOf(db.users, p).Some?
  }

  /** Where every manager exists, `getProjectById` is null exactly for an
      absent id. */
  lemma GetProjectByIdNull(db: Db, id: nat)
    requires ManagersExist(db)
    ensures GetProjectById(db, id).None? <==> Lookup(db.projects, id).None?
  {
    if Lookup(db.projects, id).Some? {
      var i := Find(db.projects.rows, id).value;
      assert Lookup(db.projects, id).value == db.projects.rows[i];
    }
  }

  lemma CreateProjectKeepsManagers(db: Db, data: Payload, now: Value)
    requires ManagersExist(db)
    ensures CreateProject(db, data, now).Ok? ==> ManagersExist(CreateProject(db, data, now).value.0)
  {
    if CreateProject(db, data, now).Ok? {
      NewProjectSupplied(data, now);
      var db' := CreateProject(db, data, now).value.0;
      assert forall i :: 0 <= i < |db.projects.rows| ==> db'.projects.rows[i] == db.projects.rows[i];
    }
  }

  lemma UpdateProjectKeepsManagers(db: Db, id: nat, data: Payload)
    requires ManagersExist(db)
    ensures UpdateProject(db, id, data).Ok? ==> ManagersExist(UpdateProject(db, id, data).value.0)
  {
    var kept := SetClause.Filter(AllowedUpdateFields, data);
    if |kept| > 0 && FirstFailure(kept).None? {
      WriteProjectKeepsManagers(db, id, data);
    }
  }

  lemma WriteProjectKeepsManagers(db: Db, id: nat, data: Payload)
    requires ManagersExist(db)
    ensures WriteProject(db, id, data).Ok? ==> ManagersExist(WriteProject(db, id, data).value.0)
  {
    var r := WriteProject(db, id, data);
    if r.Ok? && Lookup(db.projects, id).Some? {
      WriteProjectEffect(db, id, data);
      var i := Find(db.projects.rows, id).value;
      WriteProjectKeepsManager(db, id, data, i);
      forall j | 0 <= j < |r.value.0.projects.rows| ensures ManagerOf(db.users, r.value.0.projects.rows[j]).Some? {
        if j != i {
          assert r.value.0.projects.rows[j] == db.projects.rows[j];
        }
      }
    }
  }

  /** The updated row itself still has an existing manager. */
  lemma WriteProjectKeepsManager(db: Db, id: nat, data: Payload, i: nat)
    requires ManagersExist(db)
    requires Find(db.projects.rows, id) == Some(i)
    requires WriteProject(db, id, data).Ok?
    ensures i < |WriteProject(db, id, data).value.0.projects.rows|
    ensures ManagerOf(db.users, WriteProject(db, id, data).value.0.projects.rows[i]).Some?
  {
    var kept := SetClause.Filter(AllowedUpdateFields, data);
    var r := WriteProject(db, id, data);
    WriteProjectEffect(db, id, data);
    var cols := r.value.0.projects.rows[i].cols;
    var prior := db.projects.rows[i];
    assert ManagerOf(db.users, prior).Some?;
    if HasKey(kept, "manager_id") {
      var ex := SetClause.Execute(db.projects, SetClause.Build(kept, id));
      assert ex.1.Some? && ex.1.value == Row(id, cols);
      assert ManagerOf(db.users, Row(id, cols)).Some?;
    } else {
      SetClause.FilterKeys(AllowedUpdateFields, data);
      assert "manager_id" in AllowedUpdateFields;
      assert cols["manager_id"] == prior.cols["manager_id"];
    }
  }

  lemma DeleteProjectKeepsManagers(db: Db, id: nat)
    requires ManagersExist(db)
    ensures ManagersExist(DeleteProject(db, id).0)
  {
    match Find(db.projects.rows, id)
    case None =>
    case Some(i) =>
      var db' := DeleteProject(db, id).0;
      forall j | 0 <= j < |db'.projects.rows| ensures ManagerOf(db.users, db'.projects.rows[j]).Some? {
        if j < i {
          assert db'.projects.rows[j] == db.projects.rows[j];
        } else {
          assert db'.projects.rows[j] == db.projects.rows[j + 1];
        }
      }
  }

  /** A data object with a single allowed, defined entry survives the filter whole. */
  lemma FilterSingle(k: string, v: Value)
    requires k in AllowedUpdateFields && v != Undefined
    ensures SetClause.Filter(AllowedUpdateFields, [Entry(k, v)]) == [Entry(k, v)]
  {
    assert [Entry(k, v)][1..] == [];
  }

  /** An update of the status alone is rejected exactly when the status is
      not an option. */
  lemma UpdateStatusOnly(db: Db, id: nat, v: Value)
    requires v != Undefined
    ensures UpdateProject(db, id, [Entry("status", v)]) == Err(InvalidStatus) <==> !StatusOk(v)
  {
    FilterSingle("status", v);
    var kept := SetClause.Filter(AllowedUpdateFields, [Entry("status", v)]);
    assert EntryFailure(kept[0]).None? <==> StatusOk(v);
  }

  /** `getProjectById` finds the project and shows the status `v`. */
  predicate ReadsStatus(db: Db, id: nat, v: Value) {
    && GetProjectById(db, id).Some?
    && "status" in GetProjectById(db, id).value.row.cols
    && GetProjectById(db, id).value.row.cols["status"] == v
  }

  /** An accepted update of the status alone is what the next read shows. */
  lemma UpdateStatusReadBack(db: Db, id: nat, v: Value)
    requires StatusOk(v)
    requires Lookup(db.projects, id).Some? && ManagersExist(db)
    ensures UpdateProject(db, id, [Entry("status", v)]).Ok?
    ensures ReadsStatus(UpdateProject(db, id, [Entry("status", v)]).value.0, id, v)
  {
    var data: Payload := [Entry("status", v)];
    FilterSingle("status", v);
    var kept := SetClause.Filter(AllowedUpdateFields, data);
    assert EntryFailure(kept[0]).None?;
    assert UpdateProject(db, id, data) == WriteProject(db, id, data);
    WriteStatusReadBack(db, id, v);
  }

  /** The write half of a status-only update puts the status into the row. */
  lemma WriteStatusStores(db: Db, id: nat, v: Value)
    requires v != Undefined
    requires Lookup(db.projects, id).Some? && ManagersExist(db)
    ensures var r := WriteProject(db, id, [Entry("status", v)]);
            var i := Find(db.projects.rows, id).value;
            && r.Ok? && i < |r.value.0.projects.rows|
            && Lookup(r.value.0.projects, id) == Some(r.value.0.projects.rows[i])
            && "status" in r.value.0.projects.rows[i].cols
            && r.value.0.projects.rows[i].cols["status"] == v
  {
    var data: Payload := [Entry("status", v)];
    assert Get(data, "status") == v && Get(data, "manager_id") == Undefined;
    var i := Find(db.projects.rows, id).value;
    WriteProjectEffect(db, id, data);
    assert "status" in AllowedUpdateFields;
    var db' := WriteProject(db, id, data).value.0;
    assert Find(db'.projects.rows, id) == Some(i);
  }

  /** The write half of a status-only update stores the status. */
  lemma WriteStatusReadBack(db: Db, id: nat, v: Value)
    requires v != Undefined
    requires Lookup(db.projects, id).Some? && ManagersExist(db)
    ensures WriteProject(db, id, [Entry("status", v)]).Ok?
    ensures ReadsStatus(WriteProject(db, id, [Entry("status", v)]).value.0, id, v)
  {
    var data: Payload := [Entry("status", v)];
    WriteStatusStores(db, id, v);
    var db' := WriteProject(db, id, data).value.0;
    assert GetProjectById(db', id).Some? by {
      WriteProjectKeepsManagers(db, id, data);
      GetProjectByIdNull(db', id);
    }
    assert "status" in ProjectFields;
  }

  /** `'Bogus'` is rejected as a status; `'Concluído'` is accepted and read back. */
  lemma UpdateStatusScenario(db: Db, id: nat, bogus: Value, done: Value)
    requires bogus == Str("Bogus") && done == Str("Concluído")
    requires Lookup(db.projects, id).Some?
    requires ManagersExist(db)
    ensures UpdateProject(db, id, [Entry("status", bogus)]) == Err(InvalidStatus)
    ensures UpdateProject(db, id, [Entry("status", done)]).Ok?
    ensures ReadsStatus(UpdateProject(db, id, [Entry("status", done)]).value.0, id, done)
  {
    assert !StatusOk(bogus);
    assert StatusOk(done) by { assert StatusOptions[4] == "Concluído"; }
    UpdateStatusOnly(db, id, bogus);
    UpdateStatusReadBack(db, id, done);
  }

  /** The create path does not check the progress: a progress of 150 is
      stored as given. */
  lemma CreateProjectKeepsProgress(db: Db, manager: nat, now: Value)
    requires Lookup(db.users, manager).Some?
    ensures var data: Payload := [Entry("manager_id", Num(manager)), Entry("progress_pct", Num(150))];
            var r := CreateProject(db, data, now);
            r.Ok? && r.value.1.cols["progress_pct"] == Num(150)
  {
    var data: Payload := [Entry("manager_id", Num(manager)), Entry("progress_pct", Num(150))];
    assert !HasKey(data, "status") && !HasKey(data, "priority");
    assert StatusOk(Str(DefaultStatus)) && PriorityOk(Str(DefaultPriority));
    assert Get(data, "manager_id") == Num(manager);
    NewProjectDefaults(data, now);
  }

  /** An update of the progress alone is rejected exactly when the progress
      lies outside 0..100; with the bounds inclusive. */
  lemma UpdateProgressOnly(db: Db, id: nat, n: int)
    ensures UpdateProject(db, id, [Entry("progress_pct", Num(n))]).Ok? <==> 0 <= n <= 100
    ensures UpdateProject(db, id, [Entry("progress_pct", Num(n))]).Err? ==>
              UpdateProject(db, id, [Entry("progress_pct", Num(n))]) == Err(InvalidProgress)
  {
    FilterSingle("progress_pct", Num(n));
    var kept := SetClause.Filter(AllowedUpdateFields, [Entry("progress_pct", Num(n))]);
    assert !HasKey(kept, "manager_id");
  }

  lemma UpdateProgressBounds(db: Db, id: nat)
    ensures UpdateProject(db, id, [Entry("progress_pct", Num(0))]).Ok?
    ensures UpdateProject(db, id, [Entry("progress_pct", Num(100))]).Ok?
    ensures UpdateProject(db, id, [Entry("progress_pct", Num(-1))]) == Err(InvalidProgress)
    ensures UpdateProject(db, id, [Entry("progress_pct", Num(101))]) == Err(InvalidProgress)
  {
    UpdateProgressOnly(db, id, 0);
    UpdateProgressOnly(db, id, 100);
    UpdateProgressOnly(db, id, -1);
    UpdateProgressOnly(db, id, 101);
  }
}

=== FILE: projects.dfy ===
/**
 The project repository: the `projects` table, its membership join table
 (modelled as a map from project id to the project's member list), the fixed
 status and priority option sets the repository validates against, and the
 user name search.
 */
module Projects {
  import opened Values
  import opened Text
  import opened Tables
  import SetClause
  import Like

  /** `listStatusOptions()`. */
  const StatusOptions: seq<string> :=
    ["Planejamento", "Em Andamento", "Em Desenvolvimento", "Quase Concluído", "Concluído"]

  /** `listPriorityOptions()`. */
  const PriorityOptions: seq<string> := ["Baixa", "Média", "Alta"]

  /** The columns a partial update of a project may set. */
  const AllowedUpdateFields: seq<string> :=
    ["name", "description", "status", "priority", "progress_pct", "deadline", "manager_id"]

  /** The project columns returned besides the id. */
  const ProjectFields: seq<string> :=
    ["name", "description", "status", "priority", "progress_pct", "deadline", "manager_id", "created_at", "updated_at"]

  const DefaultStatus: string := "Planejamento"
  const DefaultPriority: string := "Média"

  /** The role `replaceMembers` gives when the caller names none. */
  const DefaultRole: string := "Membro"

  /** One `project_members` row of a project; `addedAt` is the server's timestamp. */
  datatype Member = Member(userId: nat, role: string, addedAt: Value)

  /** One row of `getMembers`: the member joined with the user's full name. */
  datatype MemberView = MemberView(userId: nat, name: Value, role: string, addedAt: Value)

  /** What a project read returns: `Plain` is the bare row an update returns;
      `Detailed` is `getProjectById`'s row with the manager's name and the members. */
  datatype ProjectOut =
    | Plain(row: Row)
    | Detailed(row: Row, managerName: Value, members: seq<MemberView>)

  /** The part of the database the project repository touches. */
  datatype Db = Db(users: Table, projects: Table, members: map<nat, seq<Member>>)

  predicate StatusOk(v: Value) {
    v.Str? && v.s in StatusOptions
  }

  predicate PriorityOk(v: Value) {
    v.Str? && v.s in PriorityOptions
  }

  /** `v < 0 || v > 100` for a number; null and booleans compare as 0 or 1
      and so are never out of range. */
  predicate ProgressOutOfRange(v: Value) {
    v.Num? && (v.n < 0 || v.n > 100)
  }

  /** The check `updateProject` makes of one kept entry. */
  function EntryFailure(e: Entry): (r: Option<Failure>)
    ensures r == Some(InvalidStatus) <==> e.key == "status" && !StatusOk(e.value)
    ensures r == Some(InvalidPriority) <==> e.key == "priority" && !PriorityOk(e.value)
    ensures r == Some(InvalidProgress) <==> e.key == "progress_pct" && ProgressOutOfRange(e.value)
    ensures r.None? || r.value in {InvalidStatus, InvalidPriority, InvalidProgress}
  {
    if e.key == "status" && !StatusOk(e.value) then Some(InvalidStatus)
    else if e.key == "priority" && !PriorityOk(e.value) then Some(InvalidPriority)
    else if e.key == "progress_pct" && ProgressOutOfRange(e.value) then Some(InvalidProgress)
    else None
  }

  /** The error of the first offending entry, in entry order, as the
      validation loop throws it. */
  function FirstFailure(kept: seq<Entry>): (r: Option<Failure>)
    ensures r.None? <==> forall k :: 0 <= k < |kept| ==> EntryFailure(kept[k]).None?
    ensures r.Some? ==> exists k :: 0 <= k < |kept| && EntryFailure(kept[k]) == r
                                    && forall j :: 0 <= j < k ==> EntryFailure(kept[j]).None?
  {
    if kept == [] then None
    else if EntryFailure(kept[0]).Some? then EntryFailure(kept[0])
    else
      var r := FirstFailure(kept[1..]);
      assert r.Some? ==> exists k :: 0 <= k < |kept| && EntryFailure(kept[k]) == r
                                     && forall j :: 0 <= j < k ==> EntryFailure(kept[j]).None? by {
        if r.Some? {
          var k :| 0 <= k < |kept[1..]| && EntryFailure(kept[1..][k]) == r
                   && forall j :: 0 <= j < k ==> EntryFailure(kept[1..][j]).None?;
          assert forall j :: 0 < j < k + 1 ==> kept[j] == kept[1..][j - 1];
        }
      }
      r
  }

  /** `u.nome || ' ' || u.sobrenome`: NULL when either part is not text. */
  function FullName(u: Row): (r: Value)
    ensures r.Str? <==> "nome" in u.cols && u.cols["nome"].Str? && "sobrenome" in u.cols && u.cols["sobrenome"].Str?
    ensures r.Str? ==> r.s == u.cols["nome"].s + " " + u.cols["sobrenome"].s
  {
    if "nome" in u.cols && u.cols["nome"].Str? && "sobrenome" in u.cols && u.cols["sobrenome"].Str?
    then Str(u.cols["nome"].s + " " + u.cols["sobrenome"].s)
    else Null
  }

  /** The user a `manager_id` value references, if it references one. */
  function Referenced(users: Table, v: Value): (r: Option<Row>)
    ensures r.Some? <==> v.Num? && v.n >= 0 && Lookup(users, v.n).Some?
    ensures r.Some? ==> r.value.id == v.n && r.value in users.rows
  {
    if v.Num? && v.n >= 0 then Lookup(users, v.n) else None
  }

  function ManagerOf(users: Table, p: Row): Option<Row> {
    if "manager_id" in p.cols then Referenced(users, p.cols["manager_id"]) else None
  }

  /** One row of the member join: the member with its user's full name. */
  function ViewOf(u: Row, m: Member): MemberView {
    MemberView(m.userId, FullName(u), m.role, m.addedAt)
  }

  /** A member whose user is stored. */
  predicate Known(users: Table, m: Member) {
    Lookup(users, m.userId).Some?
  }

  /** The number of members of `ms` whose user is stored. */
  function KnownCount(users: Table, ms: seq<Member>): (n: nat)
    ensures n <= |ms|
  {
    if ms == [] then 0
    else (if Known(users, ms[0]) then 1 else 0) + KnownCount(users, ms[1..])
  }

  /** The members of one project joined with their users, in stored order
      (an inner join: a member whose user is gone is not listed). Every
      member whose user is stored is listed with that user's full name, and
      nothing else is. */
  function Views(users: Table, ms: seq<Member>): (r: seq<MemberView>)
    ensures |r| == KnownCount(users, ms)
    ensures forall v :: v in r ==>
              exists m :: m in ms && Known(users, m) && v == ViewOf(Lookup(users, m.userId).value, m)
    ensures forall m :: m in ms && Known(users, m) ==> ViewOf(Lookup(users, m.userId).value, m) in r
  {
    if ms == [] then []
    else
      var rest := Views(users, ms[1..]);
      assert forall m :: m in ms[1..] ==> m in ms;
      assert forall m :: m in ms ==> m == ms[0] || m in ms[1..];
      match Lookup(users, ms[0].userId)
      case None => rest
      case Some(u) => [ViewOf(u, ms[0])] + rest
  }

  /** A member whose user exists heads the join. */
  lemma ViewsKnownHead(users: Table, ms: seq<Member>)
    requires ms != [] && Lookup(users, ms[0].userId).Some?
    ensures Views(users, ms)
            == [MemberView(ms[0].userId, FullName(Lookup(users, ms[0].userId).value), ms[0].role, ms[0].addedAt)]
               + Views(users, ms[1..])
  {
  }

  /** When every member's user exists, the join lists each member once, in
      stored order, with the user's full name. */
  lemma {:induction false} ViewsAllKnown(users: Table, ms: seq<Member>)
    requires forall m :: m in ms ==> Lookup(users, m.userId).Some?
    ensures |Views(users, ms)| == |ms|
    ensures forall k :: 0 <= k < |ms| ==>
              Views(users, ms)[k]
              == MemberView(ms[k].userId, FullName(Lookup(users, ms[k].userId).value), ms[k].role, ms[k].addedAt)
  {
    if ms != [] {
      var tail := ms[1..];
      assert forall m :: m in tail ==> m in ms;
      ViewsAllKnown(users, tail);
      assert ms[0] in ms;
      ViewsKnownHead(users, ms);
      forall k | 0 < k < |ms|
        ensures Views(users, ms)[k]
                == MemberView(ms[k].userId, FullName(Lookup(users, ms[k].userId).value), ms[k].role, ms[k].addedAt)
      {
        assert ms[k] == tail[k - 1];
      }
    }
  }

  function MembersOf(db: Db, pid: nat): seq<Member> {
    if pid in db.members then db.members[pid] else []
  }

  /** `getMembers`: the members of the project with their names. The
      `ORDER BY name` of the query is not modelled. */
  function GetMembers(db: Db, pid: nat): (r: seq<MemberView>)
    ensures |r| == KnownCount(db.users, MembersOf(db, pid))
    ensures MembersOf(db, pid) == [] ==> r == []
    ensures forall v :: v in r ==>
              exists m :: m in MembersOf(db, pid) && Known(db.users, m)
                          && v == ViewOf(Lookup(db.users, m.userId).value, m)
    ensures forall m :: m in MembersOf(db, pid) && Known(db.users, m) ==>
              ViewOf(Lookup(db.users, m.userId).value, m) in r
  {
    Views(db.users, MembersOf(db, pid))
  }

  /** `getProjectById`: null when no project has the id (or, through the inner
      join, when its manager is gone); otherwise the project row with its
      manager's full name and its members. */
  function GetProjectById(db: Db, id: nat): (r: Option<ProjectOut>)
    ensures r.None? <==> Lookup(db.projects, id).None? || ManagerOf(db.users, Lookup(db.projects, id).value).None?
    ensures r.Some? ==>
              && r.value.Detailed?
              && r.value.row == Select(Lookup(db.projects, id).value, ProjectFields)
              && r.value.row.id == id
              && r.value.managerName == FullName(ManagerOf(db.users, Lookup(db.projects, id).value).value)
              && r.value.members == GetMembers(db, id)
  {
    match Lookup(db.projects, id)
    case None => None
    case Some(p) =>
      match ManagerOf(db.users, p)
      case None => None
      case Some(u) => Some(Detailed(Select(p, ProjectFields), FullName(u), GetMembers(db, id)))
  }

  /** The columns of a new project row; `now` is the server's timestamp. */
  function NewProjectColumns(data: Payload, now: Value): (cols: map<string, Value>)
    ensures cols.Keys == set k | k in ProjectFields
    ensures forall k :: k in cols ==> cols[k] == NewProjectValue(data, now, k)
  {
    map k | k in ProjectFields :: NewProjectValue(data, now, k)
  }

  /** The status `createProject` uses: the supplied one or `'Planejamento'`. */
  function StatusOf(data: Payload): Value {
    OrDefault(Get(data, "status"), Str(DefaultStatus))
  }

  /** The priority `createProject` uses: the supplied one or `'Média'`. */
  function PriorityOf(data: Payload): Value {
    OrDefault(Get(data, "priority"), Str(DefaultPriority))
  }

  /** The value the insert of `createProject` writes into column `k`. */
  function NewProjectValue(data: Payload, now: Value, k: string): Value {
    if k == "name" || k == "manager_id" then Bound(Get(data, k))
    else if k == "status" then StatusOf(data)
    else if k == "priority" then PriorityOf(data)
    else if k == "progress_pct" then OrDefault(Get(data, k), Num(0))
    else if k == "description" || k == "deadline" then OrDefault(Get(data, k), Null)
    else now
  }

  lemma NewProjectColumnAt(data: Payload, now: Value, k: string)
    requires k in ProjectFields
    ensures k in NewProjectColumns(data, now)
    ensures NewProjectColumns(data, now)[k] == NewProjectValue(data, now, k)
  {
  }

  /** The defaults of a new project: status `'Planejamento'`, priority
      `'Média'` and progress 0; a supplied value, even an explicit null, is
      kept as it is. */
  lemma NewProjectDefaults(data: Payload, now: Value)
    ensures "status" in NewProjectColumns(data, now) && "priority" in NewProjectColumns(data, now)
            && "progress_pct" in NewProjectColumns(data, now)
    ensures NewProjectColumns(data, now)["status"] == OrDefault(Get(data, "status"), Str(DefaultStatus))
    ensures NewProjectColumns(data, now)["priority"] == OrDefault(Get(data, "priority"), Str(DefaultPriority))
    ensures NewProjectColumns(data, now)["progress_pct"] == OrDefault(Get(data, "progress_pct"), Num(0))
  {
    NewProjectColumnAt(data, now, "status");
    NewProjectColumnAt(data, now, "priority");
    NewProjectColumnAt(data, now, "progress_pct");
  }

  /** The description and deadline default to null; the name and manager are
      the supplied ones, bound as null when left out. */
  lemma NewProjectSupplied(data: Payload, now: Value)
    ensures "description" in NewProjectColumns(data, now) && "deadline" in NewProjectColumns(data, now)
            && "name" in NewProjectColumns(data, now) && "manager_id" in NewProjectColumns(data, now)
    ensures NewProjectColumns(data, now)["description"] == OrDefault(Get(data, "description"), Null)
    ensures NewProjectColumns(data, now)["deadline"] == OrDefault(Get(data, "deadline"), Null)
    ensures NewProjectColumns(data, now)["name"] == Bound(Get(data, "name"))
    ensures NewProjectColumns(data, now)["manager_id"] == Bound(Get(data, "manager_id"))
  {
    NewProjectColumnAt(data, now, "description");
    NewProjectColumnAt(data, now, "deadline");
    NewProjectColumnAt(data, now, "name");
    NewProjectColumnAt(data, now, "manager_id");
  }

  /** Both timestamps of a new project are the server's clock at insert time. */
  lemma NewProjectTimestamps(data: Payload, now: Value)
    ensures NewProjectColumns(data, now)["created_at"] == now
    ensures NewProjectColumns(data, now)["updated_at"] == now
  {
    NewProjectColumnAt(data, now, "created_at");
    NewProjectColumnAt(data, now, "updated_at");
  }

  /** `createProject`: applies the defaults, rejects a status or priority
      outside the option sets (status first) before writing, and inserts the
      row, returning every column; the progress is not checked. The manager
      must be an existing user. */
  function CreateProject(db: Db, data: Payload, now: Value): (r: Result<(Db, Row)>)
    ensures r == Err(InvalidStatus) <==> !StatusOk(StatusOf(data))
    ensures r == Err(InvalidPriority) <==> StatusOk(StatusOf(data)) && !PriorityOk(PriorityOf(data))
    ensures r == Err(ForeignKeyViolation) <==>
              StatusOk(StatusOf(data)) && PriorityOk(PriorityOf(data))
              && Referenced(db.users, Bound(Get(data, "manager_id"))).None?
    ensures r.Err? ==> r.failure in {InvalidStatus, InvalidPriority, ForeignKeyViolation}
    ensures r.Ok? ==>
              var row := Row(db.projects.nextId, NewProjectColumns(data, now));
              && r.value.0 == db.(projects := Table(db.projects.rows + [row], db.projects.nextId + 1))
              && r.value.1 == row
  {
    if !StatusOk(StatusOf(data)) then Err(InvalidStatus)
    else if !PriorityOk(PriorityOf(data)) then Err(InvalidPriority)
    else if Referenced(db.users, Bound(Get(data, "manager_id"))).None? then Err(ForeignKeyViolation)
    else
      var ins := Insert(db.projects, NewProjectColumns(data, now));
      Ok((db.(projects := ins.0), ins.1))
  }

  /** `updateProject`: keeps the entries whose key is one of the seven project
      columns and whose value is defined; with none left it is
      `getProjectById`. Otherwise every kept status, priority and progress is
      checked before anything is written, and the first offending entry's
      error is raised. A changed manager must be an existing user. */
  function UpdateProject(db: Db, id: nat, data: Payload): (r: Result<(Db, Option<ProjectOut>)>)
    ensures r.Err? ==> r.failure in {InvalidStatus, InvalidPriority, InvalidProgress, ForeignKeyViolation}
    ensures r.Ok? ==> r.value.0.users == db.users && r.value.0.members == db.members
    ensures r.Ok? && r.value.1.Some? ==> r.value.1.value.row.id == id
  {
    var kept := SetClause.Filter(AllowedUpdateFields, data);
    if |kept| == 0 then Ok((db, GetProjectById(db, id)))
    else if FirstFailure(kept).Some? then Err(FirstFailure(kept).value)
    else WriteProject(db, id, data)
  }

  /** The write half of `updateProject`, once the data has passed validation:
      the built statement runs against the projects table, and a changed
      manager must reference an existing user (the foreign key), or the
      statement fails as a whole. */
  function WriteProject(db: Db, id: nat, data: Payload): (r: Result<(Db, Option<ProjectOut>)>)
    ensures r.Err? ==> r == Err(ForeignKeyViolation)
    ensures r.Ok? ==> r.value.0.users == db.users && r.value.0.members == db.members
    ensures r.Ok? && r.value.1.Some? ==> r.value.1.value.row.id == id
    ensures Lookup(db.projects, id).None? ==> r == Ok((db, None))
  {
    var kept := SetClause.Filter(AllowedUpdateFields, data);
    match SetClause.Execute(db.projects, SetClause.Build(kept, id))
    case (_, None) => Ok((db, None))
    case (projects', Some(row)) =>
      if HasKey(kept, "manager_id") && ManagerOf(db.users, row).None? then Err(ForeignKeyViolation)
      else Ok((db.(projects := projects'), Some(Plain(Select(row, ProjectFields)))))
  }

  /** `deleteProject`: removes the project row and returns it, or null. The
      membership rows are left as they are. */
  function DeleteProject(db: Db, id: nat): (r: (Db, Option<Row>))
    ensures r.1.None? <==> Lookup(db.projects, id).None?
    ensures r.1.None? ==> r.0 == db
    ensures r.1.Some? ==>
              && r.1.value == Select(Lookup(db.projects, id).value, ProjectFields)
              && r.0 == db.(projects := Remove(db.projects, Find(db.projects.rows, id).value))
  {
    match Find(db.projects.rows, id)
    case None => (db, None)
    case Some(i) => (db.(projects := Remove(db.projects, i)), Some(Select(db.projects.rows[i], ProjectFields)))
  }
}

=== FILE: search.dfy ===
/**
 The user name search of the project repository (`searchUsersByName`): the
 query, trimmed, becomes the pattern `%q%`, which is matched without regard
 to case (ILIKE) against `nome || ' ' || sobrenome`; at most `limit` users
 are listed.
 */
module Search {
  import opened Values
  import opened Text
  import opened Tables
  import Like
  import opened Projects

  /** The limit when the caller names none. */
  const DefaultLimit: nat := 20

  /** One row of the search: id, full name, email and role. */
  datatype Hit = Hit(id: nat, name: Value, email: Value, cargo: Value)

  /** `` `%${q.trim()}%` ``: the trimmed query between two `%` wildcards. */
  function SearchTerm(q: string): (term: string)
    ensures |term| == |Trim(q)| + 2
    ensures term[0] == '%' && term[|term| - 1] == '%'
    ensures term[1..|term| - 1] == Trim(q)
  {
    "%" + Trim(q) + "%"
  }

  /** A column of a user row as the SELECT reads it; a missing column reads as null. */
  function Column(u: Row, c: string): Value {
    if c in u.cols then u.cols[c] else Null
  }

  function HitOf(u: Row): Hit {
    Hit(u.id, FullName(u), Column(u, "email"), Column(u, "cargo"))
  }

  /** `(u.nome || ' ' || u.sobrenome) ILIKE term`; a null name matches nothing. */
  predicate NameMatches(u: Row, term: string) {
    FullName(u).Str? && Like.Like(Lower(FullName(u).s), Lower(term))
  }

  /** The matching users, in stored order. */
  function Hits(rows: seq<Row>, term: string): (r: seq<Hit>)
    ensures |r| <= |rows|
    ensures forall h :: h in r ==> exists u :: u in rows && NameMatches(u, term) && h == HitOf(u)
    ensures forall u :: u in rows && NameMatches(u, term) ==> HitOf(u) in r
  {
    if rows == [] then []
    else
      var rest := Hits(rows[1..], term);
      assert forall u :: u in rows[1..] ==> u in rows;
      assert forall u :: u in rows ==> u == rows[0] || u in rows[1..];
      if NameMatches(rows[0], term) then [HitOf(rows[0])] + rest else rest
  }

  /** The `limit` option of the search, `DefaultLimit` when it is not given. */
  function LimitOf(limit: Option<nat>): nat {
    match limit
    case Some(n) => n
    case None => DefaultLimit
  }

  /** `searchUsersByName(q, { limit })`: the first `limit` matching users,
      at most twenty when no limit is given. The `ORDER BY nome, sobrenome`
      of the query is not modelled: the matches come in stored order. */
  function SearchUsersByName(users: Table, q: string, limit: Option<nat>): (r: seq<Hit>)
    ensures limit.None? ==> |r| <= 20
    ensures |r| <= LimitOf(limit)
    ensures |r| == if |Hits(users.rows, SearchTerm(q))| <= LimitOf(limit) then |Hits(users.rows, SearchTerm(q))|
                   else LimitOf(limit)
    ensures r <= Hits(users.rows, SearchTerm(q))
  {
    var all := Hits(users.rows, SearchTerm(q));
    if |all| <= LimitOf(limit) then all else all[..LimitOf(limit)]
  }

  /** Lower-casing keeps a pattern free of LIKE's special characters. */
  lemma LowerLiteral(t: string)
    requires Like.Literal(t)
    ensures Like.Literal(Lower(t))
  {
  }

  /** The lower-cased search pattern is `%` around the lower-cased query. */
  lemma LowerSearchTerm(q: string)
    ensures Lower(SearchTerm(q)) == "%" + Lower(Trim(q)) + "%"
  {
    LowerAppend("%" + Trim(q), "%");
    LowerAppend("%", Trim(q));
  }

  /** For a query without `%`, `_` or backslash, a user matches exactly when
      the lower-cased trimmed query occurs in the lower-cased full name. */
  lemma NameMatchesContains(u: Row, q: string)
    requires Like.Literal(Trim(q))
    ensures NameMatches(u, SearchTerm(q)) <==>
              FullName(u).Str? && Like.Contains(Lower(FullName(u).s), Lower(Trim(q)))
  {
    LowerSearchTerm(q);
    LowerLiteral(Trim(q));
    if FullName(u).Str? {
      Like.LikeContains(Lower(FullName(u).s), Lower(Trim(q)));
    }
  }

  /** Every listed user's full name contains the query, ignoring case. */
  lemma SearchSound(users: Table, q: string, limit: Option<nat>)
    requires Like.Literal(Trim(q))
    ensures forall h :: h in SearchUsersByName(users, q, limit) ==>
              h.name.Str? && Like.Contains(Lower(h.name.s), Lower(Trim(q)))
  {
    var all := Hits(users.rows, SearchTerm(q));
    forall h | h in SearchUsersByName(users, q, limit)
      ensures h.name.Str? && Like.Contains(Lower(h.name.s), Lower(Trim(q)))
    {
      var r := SearchUsersByName(users, q, limit);
      var k :| 0 <= k < |r| && r[k] == h;
      assert h in all by { assert all[k] == h; }
      var u :| u in users.rows && NameMatches(u, SearchTerm(q)) && h == HitOf(u);
      NameMatchesContains(u, q);
    }
  }

  /** When the matches fit in the limit, every user whose full name contains
      the query, ignoring case, is listed. */
  lemma SearchComplete(users: Table, q: string, limit: Option<nat>, u: Row)
    requires Like.Literal(Trim(q))
    requires |Hits(users.rows, SearchTerm(q))| <= LimitOf(limit)
    requires u in users.rows
    requires FullName(u).Str? && Like.Contains(Lower(FullName(u).s), Lower(Trim(q)))
    ensures HitOf(u) in SearchUsersByName(users, q, limit)
  {
    NameMatchesContains(u, q);
  }

  /** A blank query lists every user with a name, up to the limit. */
  lemma SearchBlank(users: Table, q: string, u: Row)
    requires AllSpace(q)
    requires u in users.rows && FullName(u).Str?
    ensures HitOf(u) in Hits(users.rows, SearchTerm(q))
  {
    assert Trim(q) == [];
    assert Like.Literal(Trim(q));
    NameMatchesContains(u, q);
    assert Lower(FullName(u).s)[0..] == Lower(FullName(u).s);
  }
}

=== FILE: set_clause.dfy ===
/**
 The dynamic partial-update builder shared by the user and project
 repositories: keep the entries of the caller's data object whose key is on a
 fixed allow-list and whose value is not `undefined`, number them `$1..$n`,
 and bind the row id last, as `$n+1`. Also the meaning of the statement so
 built: what `UPDATE ... SET ... WHERE id = ...` does to a table.
 */
module SetClause {
  import opened Values
  import opened Tables

  predicate Kept(allowed: seq<string>, e: Entry) {
    e.key in allowed && e.value != Undefined
  }

  /** `Object.entries(data).filter(([k, v]) => allowed.includes(k) && v !== undefined)`. */
  function Filter(allowed: seq<string>, p: seq<Entry>): (kept: seq<Entry>)
    ensures |kept| <= |p|
    ensures forall e :: e in kept <==> e in p && Kept(allowed, e)
    ensures DistinctKeys(p) ==> DistinctKeys(kept)
  {
    if p == [] then []
    else
      var rest := Filter(allowed, p[1..]);
      if Kept(allowed, p[0]) then
        assert DistinctKeys(p) ==> forall e :: e in rest ==> e.key != p[0].key by {
          if DistinctKeys(p) {
            forall e | e in rest ensures e.key != p[0].key {
              var m :| 0 <= m < |p[1..]| && p[1..][m] == e;
              assert p[m + 1] == e;
            }
          }
        }
        [p[0]] + rest
      else rest
  }

  /** The filter keeps the order of the entries: it distributes over concatenation. */
  lemma {:induction false} FilterAppend(allowed: seq<string>, p: seq<Entry>, q: seq<Entry>)
    ensures Filter(allowed, p + q) == Filter(allowed, p) + Filter(allowed, q)
    decreases |p|
  {
    if p == [] {
      assert p + q == q;
    } else {
      assert (p + q)[0] == p[0];
      assert (p + q)[1..] == p[1..] + q;
      FilterAppend(allowed, p[1..], q);
    }
  }

  /** One `column = $placeholder` fragment of the SET list. */
  datatype Assignment = Assignment(column: string, placeholder: nat)

  /** `UPDATE <table> SET <assignments> WHERE id = $<idPlaceholder>` together
      with its parameter list. Placeholders are 1-based. */
  datatype Update = Update(assignments: seq<Assignment>, idPlaceholder: nat, params: seq<Value>)

  /** Every placeholder names a parameter. */
  predicate WellFormed(u: Update) {
    && 1 <= u.idPlaceholder <= |u.params|
    && forall k :: 0 <= k < |u.assignments| ==> 1 <= u.assignments[k].placeholder <= |u.params|
  }

  /** The k-th fragment uses `$k` (counting from 1), and the id is the last
      parameter, right after the values. */
  predicate InOrder(u: Update) {
    && |u.params| == |u.assignments| + 1
    && u.idPlaceholder == |u.params|
    && forall k :: 0 <= k < |u.assignments| ==> u.assignments[k].placeholder == k + 1
  }

  /** What the database reads from the statement: each column with the
      parameter its placeholder designates. */
  function Resolve(u: Update): (es: seq<Entry>)
    requires WellFormed(u)
    ensures |es| == |u.assignments|
  {
    seq(|u.assignments|, k requires 0 <= k < |u.assignments| =>
      Entry(u.assignments[k].column, u.params[u.assignments[k].placeholder - 1]))
  }

  /** The value the WHERE clause compares the id column with. */
  function Target(u: Update): Value
    requires WellFormed(u)
  {
    u.params[u.idPlaceholder - 1]
  }

  /** `entries.map(([k], i) => `${k} = $${i + first}`)`, as fragments. */
  function Numbered(kept: seq<Entry>, first: nat): (a: seq<Assignment>)
    ensures |a| == |kept|
    ensures forall k :: 0 <= k < |kept| ==> a[k].column == kept[k].key && a[k].placeholder == first + k
  {
    if kept == [] then [] else [Assignment(kept[0].key, first)] + Numbered(kept[1..], first + 1)
  }

  /** `entries.map(([, v]) => v)`. */
  function ValuesOf(kept: seq<Entry>): (vs: seq<Value>)
    ensures |vs| == |kept|
    ensures forall k :: 0 <= k < |kept| ==> vs[k] == kept[k].value
  {
    if kept == [] then [] else [kept[0].value] + ValuesOf(kept[1..])
  }

  /** The statement `updateUser` and `updateProject` send: the SET list over
      the kept entries and the parameters `[...values, id]`. Reading it back
      yields exactly the kept entries, in order, and the row id. */
  function Build(kept: seq<Entry>, id: nat): (u: Update)
    ensures WellFormed(u) && InOrder(u)
    ensures |u.params| == |kept| + 1
    ensures Resolve(u) == kept
    ensures Target(u) == Num(id)
  {
    var u := Update(Numbered(kept, 1), |kept| + 1, ValuesOf(kept) + [Num(id)]);
    assert forall k :: 0 <= k < |kept| ==> Resolve(u)[k] == kept[k];
    u
  }

  /** The assignments applied to a row's columns from left to right. */
  function Apply(cols: map<string, Value>, es: seq<Entry>): (r: map<string, Value>)
    ensures forall k :: k in r <==> k in cols || HasKey(es, k)
    ensures forall k :: k in cols && !HasKey(es, k) ==> r[k] == cols[k]
    decreases |es|
  {
    if es == [] then cols
    else
      assert forall e :: e in es[1..] ==> e in es;
      assert forall e :: e in es && e != es[0] ==> e in es[1..];
      Apply(cols[es[0].key := es[0].value], es[1..])
  }

  /** With distinct keys, every assignment ends up in the row: no later
      assignment overwrites an earlier one. */
  lemma {:induction false} ApplyWrites(cols: map<string, Value>, es: seq<Entry>)
    requires DistinctKeys(es)
    ensures forall e :: e in es ==> e.key in Apply(cols, es) && Apply(cols, es)[e.key] == e.value
    decreases |es|
  {
    if es != [] {
      var rest := es[1..];
      assert DistinctKeys(rest);
      ApplyWrites(cols[es[0].key := es[0].value], rest);
      assert !HasKey(rest, es[0].key) by {
        forall e | e in rest ensures e.key != es[0].key {
          var m :| 0 <= m < |rest| && rest[m] == e;
          assert es[m + 1] == e;
        }
      }
      assert forall e :: e in es && e != es[0] ==> e in rest;
    }
  }

  /** Running the statement against a table: the row whose id equals the
      target parameter, if any, gets the resolved assignments; RETURNING
      yields that row. No matching row means no change and no result. */
  function Execute(t: Table, u: Update): (r: (Table, Option<Row>))
    requires WellFormed(u)
    ensures r.1.None? ==> r.0 == t
    ensures r.1.None? ==> !(Target(u).Num? && Target(u).n >= 0 && Lookup(t, Target(u).n).Some?)
    ensures r.1.Some? ==>
              && Target(u) == Num(r.1.value.id)
              && Find(t.rows, r.1.value.id).Some?
              && var i := Find(t.rows, r.1.value.id).value;
                 && r.1.value.cols == Apply(t.rows[i].cols, Resolve(u))
                 && r.0 == Put(t, i, r.1.value.cols)
  {
    match Target(u)
    case Num(n) =>
      if n < 0 then (t, None)
      else (
        match Find(t.rows, n)
        case None => (t, None)
        case Some(i) =>
          var cols := Apply(t.rows[i].cols, Resolve(u));
          (Put(t, i, cols), Some(Row(n, cols))))
    case _ => (t, None)
  }

  /** The reference meaning of a partial update of the columns `prior` by the
      data object `data` under an allow-list: exactly the allowed keys whose
      value is not `undefined` change, each to its supplied value; every other
      column keeps its value. */
  ghost predicate PatchedBy(cols: map<string, Value>, prior: map<string, Value>, allowed: seq<string>, data: Payload) {
    && (forall k :: k in cols <==> k in prior || (k in allowed && Get(data, k) != Undefined))
    && (forall k :: k in cols ==>
          cols[k] == if k in allowed && Get(data, k) != Undefined then Get(data, k) else prior[k])
  }

  /** An entry survives the filter exactly when its key is allowed and its
      value is defined, and it then carries the object's value for that key. */
  lemma FilterKeys(allowed: seq<string>, data: Payload)
    ensures forall k :: HasKey(Filter(allowed, data), k) <==> k in allowed && Get(data, k) != Undefined
    ensures forall e :: e in Filter(allowed, data) ==> e.value == Get(data, e.key)
  {
    var kept := Filter(allowed, data);
    forall k | k in allowed && Get(data, k) != Undefined ensures HasKey(kept, k) {
      assert HasKey(data, k);
      var e :| e in data && e.key == k;
      assert e in kept;
    }
  }

  /** Executing the built statement performs the reference partial update on
      the row with the given id, and only on it. */
  lemma BuiltUpdateEffect(t: Table, allowed: seq<string>, data: Payload, id: nat)
    requires Lookup(t, id).Some?
    ensures var r := Execute(t, Build(Filter(allowed, data), id));
            && r.1.Some?
            && r.1.value.id == id
            && PatchedBy(r.1.value.cols, Lookup(t, id).value.cols, allowed, data)
  {
    var kept := Filter(allowed, data);
    var u := Build(kept, id);
    assert Target(u) == Num(id);
    assert Resolve(u) == kept;
    FilterKeys(allowed, data);
    var r := Execute(t, u);
    var old_ := Lookup(t, id).value.cols;
    ApplyWrites(old_, kept);
    forall k | k in r.1.value.cols
      ensures r.1.value.cols[k] ==
              if k in allowed && Get(data, k) != Undefined then Get(data, k) else old_[k]
    {
      if k in allowed && Get(data, k) != Undefined {
        var e :| e in kept && e.key == k;
      }
    }
  }
}

=== FILE: tables.dfy ===
/**
 An abstract relational table: the rows of `users` or `projects` in
 insertion order, each with a generated id. Ids are handed out in increasing
 order, so insertion order is also `ORDER BY id`.
 */
module Tables {
  import opened Values

  /** A stored row: its generated id and its other columns by name. */
  datatype Row = Row(id: nat, cols: map<string, Value>)

  /** A table: its rows, and the id the next insert receives. */
  datatype Table = Table(rows: seq<Row>, nextId: nat)

  /** Ids are below the next id to hand out and strictly increase along the table. */
  predicate Valid(t: Table) {
    && (forall i :: 0 <= i < |t.rows| ==> t.rows[i].id < t.nextId)
    && (forall i, j :: 0 <= i < j < |t.rows| ==> t.rows[i].id < t.rows[j].id)
  }

  /** The position of the first row with the given id. */
  function Find(rows: seq<Row>, id: nat): (r: Option<nat>)
    ensures r.Some? ==> r.value < |rows| && rows[r.value].id == id
    ensures r.Some? ==> forall j :: 0 <= j < r.value ==> rows[j].id != id
    ensures r.None? <==> forall j :: 0 <= j < |rows| ==> rows[j].id != id
  {
    if rows == [] then None
    else if rows[0].id == id then Some(0)
    else match Find(rows[1..], id)
      case None => None
      case Some(i) => Some(i + 1)
  }

  /** `SELECT ... WHERE id = $1`: the row with that id, if any. */
  function Lookup(t: Table, id: nat): (r: Option<Row>)
    ensures r.Some? ==> r.value in t.rows && r.value.id == id
    ensures r.None? <==> forall j :: 0 <= j < |t.rows| ==> t.rows[j].id != id
  {
    match Find(t.rows, id)
    case None => None
    case Some(i) => Some(t.rows[i])
  }

  lemma LookupAt(t: Table, i: nat)
    requires Valid(t)
    requires i < |t.rows|
    ensures Find(t.rows, t.rows[i].id) == Some(i)
    ensures Lookup(t, t.rows[i].id) == Some(t.rows[i])
  {
  }

  /** `INSERT ... RETURNING`: appends a row carrying the next generated id. */
  function Insert(t: Table, cols: map<string, Value>): (r: (Table, Row))
    ensures r.1 == Row(t.nextId, cols)
    ensures r.0 == Table(t.rows + [r.1], t.nextId + 1)
    ensures Valid(t) ==> Valid(r.0)
  {
    var row := Row(t.nextId, cols);
    (Table(t.rows + [row], t.nextId + 1), row)
  }

  /** Overwrites the columns of the row at position `i`, keeping its id. */
  function Put(t: Table, i: nat, cols: map<string, Value>): (r: Table)
    requires i < |t.rows|
    ensures |r.rows| == |t.rows| && r.nextId == t.nextId
    ensures r.rows[i] == Row(t.rows[i].id, cols)
    ensures forall j :: 0 <= j < |t.rows| && j != i ==> r.rows[j] == t.rows[j]
    ensures Valid(t) ==> Valid(r)
  {
    t.(rows := t.rows[i := Row(t.rows[i].id, cols)])
  }

  /** After overwriting the row at position `i`, a lookup of its id finds the new columns. */
  lemma LookupAfterPut(t: Table, i: nat, cols: map<string, Value>)
    requires i < |t.rows|
    requires Find(t.rows, t.rows[i].id) == Some(i)
    ensures Lookup(Put(t, i, cols), t.rows[i].id) == Some(Row(t.rows[i].id, cols))
  {
    var t' := Put(t, i, cols);
    assert forall j :: 0 <= j < i ==> t'.rows[j] == t.rows[j];
    assert Find(t'.rows, t.rows[i].id) == Some(i);
  }

  /** `DELETE`: removes the row at position `i`. */
  function Remove(t: Table, i: nat): (r: Table)
    requires i < |t.rows|
    ensures r.rows == t.rows[..i] + t.rows[i + 1..] && r.nextId == t.nextId
    ensures Valid(t) ==> Valid(r)
  {
    t.(rows := t.rows[..i] + t.rows[i + 1..])
  }

  /** The columns of `cols` named in `fields`: what a `SELECT <fields>` or
      `RETURNING <fields>` list yields. */
  function Project(cols: map<string, Value>, fields: seq<string>): (r: map<string, Value>)
    ensures forall k :: k in r <==> k in cols && k in fields
    ensures forall k :: k in r ==> r[k] == cols[k]
  {
    map k | k in cols && k in fields :: cols[k]
  }

  function Select(row: Row, fields: seq<string>): (r: Row)
    ensures r.id == row.id
    ensures forall k :: k in r.cols <==> k in row.cols && k in fields
    ensures forall k :: k in r.cols ==> r.cols[k] == row.cols[k]
  {
    Row(row.id, Project(row.cols, fields))
  }
}

=== FILE: text.dfy ===
/**
 String operations the routes and repositories rely on: JavaScript's
 `trim()` and `split(/\s+/)`, `Array.prototype.join`, and a case folding
 that stands in for SQL's `LOWER`.
 */
module Text {

  /** The code points JavaScript counts as white space or line terminators:
      exactly what `trim()` strips and what the regular expression `\s` matches.
      These are tab, line feed, vertical tab, form feed, carriage return
      (U+0009 to U+000D), space, no-break space, the Ogham space mark, the
      spaces U+2000 to U+200A, the line and paragraph separators, the narrow
      no-break space, the medium mathematical space, the ideographic space
      and the byte order mark. */
  predicate IsSpace(c: char) {
    || c == ' ' || '\t' <= c <= '\r'
    || c == '\U{A0}' || c == '\U{1680}' || '\U{2000}' <= c <= '\U{200A}'
    || c == '\U{2028}' || c == '\U{2029}' || c == '\U{202F}' || c == '\U{205F}'
    || c == '\U{3000}' || c == '\U{FEFF}'
  }

  predicate NoSpace(s: string) {
    forall i :: 0 <= i < |s| ==> !IsSpace(s[i])
  }

  predicate AllSpace(s: string) {
    forall i :: 0 <= i < |s| ==> IsSpace(s[i])
  }

  /** The number of white-space characters `s` starts with. */
  function Leading(s: string): (n: nat)
    ensures n <= |s|
    ensures forall k :: 0 <= k < n ==> IsSpace(s[k])
    ensures n < |s| ==> !IsSpace(s[n])
  {
    if s == [] || !IsSpace(s[0]) then 0 else 1 + Leading(s[1..])
  }

  /** The number of white-space characters `s` ends with. */
  function Trailing(s: string): (n: nat)
    ensures n <= |s|
    ensures forall k :: |s| - n <= k < |s| ==> IsSpace(s[k])
    ensures n < |s| ==> !IsSpace(s[|s| - n - 1])
  {
    if s == [] || !IsSpace(s[|s| - 1]) then 0 else 1 + Trailing(s[..|s| - 1])
  }

  /** `s.trim()`: the slice of `s` left after removing leading and trailing white space. */
  function Trim(s: string): (r: string)
    ensures exists i :: 0 <= i <= |s| - |r|
                        && r == s[i..i + |r|]
                        && AllSpace(s[..i])
                        && AllSpace(s[i + |r|..])
    ensures r == [] || (!IsSpace(r[0]) && !IsSpace(r[|r| - 1]))
  {
    var i := Leading(s);
    if i == |s| then
      assert AllSpace(s[..i]) by {
        assert forall k :: 0 <= k < i ==> s[..i][k] == s[k];
      }
      []
    else
      var j := |s| - Trailing(s);
      assert i < j;
      assert AllSpace(s[..i]) by {
        assert forall k :: 0 <= k < i ==> s[..i][k] == s[k];
      }
      assert AllSpace(s[j..]) by {
        assert forall k :: 0 <= k < |s| - j ==> s[j..][k] == s[j + k];
      }
      s[i..j]
  }

  /** The length of the longest white-space-free prefix of `s`. */
  function RunLength(s: string): (k: nat)
    ensures k <= |s|
    ensures NoSpace(s[..k])
    ensures k == |s| || IsSpace(s[k])
  {
    if s == [] || IsSpace(s[0]) then 0 else 1 + RunLength(s[1..])
  }

  /** The maximal runs of non-white-space characters of `s`, in order. On a
      string without leading or trailing white space that is not empty, this is
      what `s.split(/\s+/)` returns. */
  function Words(s: string): (ws: seq<string>)
    ensures forall w :: w in ws ==> w != [] && NoSpace(w)
    ensures ws == [] <==> AllSpace(s)
    ensures s != [] && !IsSpace(s[0]) ==> ws != [] && ws[0] == s[..RunLength(s)]
    decreases |s|
  {
    if s == [] then []
    else if IsSpace(s[0]) then
      assert AllSpace(s) <==> AllSpace(s[1..]) by {
        assert forall i :: 0 < i < |s| ==> s[i] == s[1..][i - 1];
      }
      Words(s[1..])
    else
      var k := RunLength(s);
      [s[..k]] + Words(s[k..])
  }

  /** A word breaks only at white space: after any white space, a maximal run
      of other characters is one word, and the words of what follows come
      after it. Together with `Words("") == []` this fixes every split. */
  lemma {:induction false} WordsRun(pad: string, w: string, rest: string)
    requires AllSpace(pad) && w != [] && NoSpace(w)
    requires rest == [] || IsSpace(rest[0])
    ensures Words(pad + w + rest) == [w] + Words(rest)
    decreases |pad|
  {
    if pad == [] {
      assert pad + w + rest == w + rest;
      RunLengthOfWord(w, rest);
      assert (w + rest)[..|w|] == w;
      assert (w + rest)[|w|..] == rest;
    } else {
      assert (pad + w + rest)[1..] == pad[1..] + w + rest;
      assert AllSpace(pad[1..]) by {
        assert forall i :: 0 <= i < |pad[1..]| ==> pad[1..][i] == pad[i + 1];
      }
      WordsRun(pad[1..], w, rest);
    }
  }

  /** `ws.join(sep)`. */
  function Join(ws: seq<string>, sep: string): string {
    if ws == [] then ""
    else if |ws| == 1 then ws[0]
    else ws[0] + sep + Join(ws[1..], sep)
  }

  function Concat(ws: seq<string>): string {
    if ws == [] then "" else ws[0] + Concat(ws[1..])
  }

  /** `s` with every white-space character removed. */
  function Squeeze(s: string): (r: string)
    ensures NoSpace(r)
    ensures |r| <= |s|
  {
    if s == [] then ""
    else if IsSpace(s[0]) then Squeeze(s[1..])
    else [s[0]] + Squeeze(s[1..])
  }

  lemma {:induction false} SqueezeAppend(a: string, b: string)
    ensures Squeeze(a + b) == Squeeze(a) + Squeeze(b)
    decreases |a|
  {
    if a != [] {
      assert (a + b)[1..] == a[1..] + b;
      SqueezeAppend(a[1..], b);
    } else {
      assert a + b == b;
    }
  }

  lemma {:induction false} SqueezeNoSpace(a: string)
    requires NoSpace(a)
    ensures Squeeze(a) == a
    decreases |a|
  {
    if a != [] {
      SqueezeNoSpace(a[1..]);
    }
  }

  /** Splitting into words loses only white space: the words, put back
      together, are the non-white-space characters of `s` in order. */
  lemma {:induction false} WordsKeepText(s: string)
    ensures Concat(Words(s)) == Squeeze(s)
    decreases |s|
  {
    if s == [] {
    } else if IsSpace(s[0]) {
      WordsKeepText(s[1..]);
    } else {
      var k := RunLength(s);
      WordsKeepText(s[k..]);
      assert s == s[..k] + s[k..];
      SqueezeAppend(s[..k], s[k..]);
      SqueezeNoSpace(s[..k]);
    }
  }

  lemma {:induction false} RunLengthOfWord(w: string, rest: string)
    requires NoSpace(w)
    requires rest == [] || IsSpace(rest[0])
    ensures RunLength(w + rest) == |w|
    decreases |w|
  {
    if w != [] {
      assert (w + rest)[1..] == w[1..] + rest;
      RunLengthOfWord(w[1..], rest);
    } else {
      assert w + rest == rest;
    }
  }

  /** Joining words with single spaces and splitting the result again gives
      the same words back. */
  lemma {:induction false} WordsOfJoin(ws: seq<string>)
    requires forall w :: w in ws ==> w != [] && NoSpace(w)
    ensures Words(Join(ws, " ")) == ws
    decreases |ws|
  {
    if ws == [] {
    } else if |ws| == 1 {
      var w := ws[0];
      RunLengthOfWord(w, "");
      assert w + "" == w;
      assert w[..|w|] == w;
      assert w[|w|..] == [];
    } else {
      var w := ws[0];
      var j := Join(ws[1..], " ");
      var s := w + " " + j;
      assert s == w + (" " + j);
      RunLengthOfWord(w, " " + j);
      assert s[..|w|] == w;
      assert s[|w|..] == " " + j;
      assert (" " + j)[1..] == j;
      assert forall w :: w in ws[1..] ==> w in ws;
      WordsOfJoin(ws[1..]);
    }
  }

  /** Trimming a padded string gives back the string inside the padding. */
  lemma TrimPadded(pre: string, s: string, post: string)
    requires AllSpace(pre) && AllSpace(post)
    requires s != [] && !IsSpace(s[0]) && !IsSpace(s[|s| - 1])
    ensures Trim(pre + s + post) == s
  {
    var x := pre + s + post;
    assert forall k :: 0 <= k < |pre| ==> x[k] == pre[k];
    assert forall k :: 0 <= k < |post| ==> x[|pre| + |s| + k] == post[k];
    assert x[|pre|] == s[0] && x[|pre| + |s| - 1] == s[|s| - 1];
    assert Leading(x) == |pre|;
    assert Trailing(x) == |post|;
    assert x[|pre|..|pre| + |s|] == s;
  }

  /** A string trims to nothing exactly when it is all white space. */
  lemma TrimBlank(s: string)
    ensures Trim(s) == [] <==> AllSpace(s)
  {
  }

  lemma {:induction false} SqueezeAllSpace(s: string)
    requires AllSpace(s)
    ensures Squeeze(s) == ""
    decreases |s|
  {
    if s != [] {
      SqueezeAllSpace(s[1..]);
    }
  }

  /** Leading white space adds nothing once white space is dropped. */
  lemma SqueezeDropLeading(s: string, i: nat)
    requires i <= |s| && AllSpace(s[..i])
    ensures Squeeze(s) == Squeeze(s[i..])
  {
    assert s == s[..i] + s[i..];
    SqueezeAppend(s[..i], s[i..]);
    SqueezeAllSpace(s[..i]);
    assert [] + Squeeze(s[i..]) == Squeeze(s[i..]);
  }

  /** Trailing white space adds nothing once white space is dropped. */
  lemma SqueezeDropTrailing(s: string, j: nat)
    requires j <= |s| && AllSpace(s[j..])
    ensures Squeeze(s) == Squeeze(s[..j])
  {
    assert s == s[..j] + s[j..];
    SqueezeAppend(s[..j], s[j..]);
    SqueezeAllSpace(s[j..]);
    assert Squeeze(s[..j]) + [] == Squeeze(s[..j]);
  }

  /** Trimming removes white space only. */
  lemma TrimKeepsText(s: string)
    ensures Squeeze(Trim(s)) == Squeeze(s)
  {
    var i := Leading(s);
    if i == |s| {
      assert AllSpace(s);
      SqueezeAllSpace(s);
    } else {
      var j := |s| - Trailing(s);
      var u := s[i..];
      assert AllSpace(s[..i]) by {
        assert forall k :: 0 <= k < i ==> s[..i][k] == s[k];
      }
      SqueezeDropLeading(s, i);
      var v := u[j - i..];
      assert AllSpace(v) by {
        assert forall k :: 0 <= k < |v| ==> v[k] == s[j + k];
      }
      SqueezeDropTrailing(u, j - i);
      assert u[..j - i] == Trim(s);
    }
  }

  /** Joining space-free words with single spaces and dropping the white space
      again gives the words run together. */
  lemma {:induction false} SqueezeJoin(ws: seq<string>)
    requires forall w :: w in ws ==> NoSpace(w)
    ensures Squeeze(Join(ws, " ")) == Concat(ws)
    decreases |ws|
  {
    if ws == [] {
    } else if |ws| == 1 {
      SqueezeNoSpace(ws[0]);
      assert Concat(ws) == ws[0] + Concat([]);
    } else {
      assert ws[0] in ws;
      var rest := Join(ws[1..], " ");
      assert Squeeze(ws[0] + " ") == ws[0] by {
        SqueezeAppend(ws[0], " ");
        SqueezeNoSpace(ws[0]);
        assert Squeeze(" ") == Squeeze(" "[1..]);
      }
      assert Squeeze(rest) == Concat(ws[1..]) by {
        assert forall w :: w in ws[1..] ==> w in ws;
        SqueezeJoin(ws[1..]);
      }
      SqueezeAppend(ws[0] + " ", rest);
    }
  }

  /** Words joined with single spaces neither start nor end with white space. */
  lemma {:induction false} JoinBorders(ws: seq<string>)
    requires forall w :: w in ws ==> w != [] && NoSpace(w)
    ensures var j := Join(ws, " ");
            ws != [] ==> j != [] && !IsSpace(j[0]) && !IsSpace(j[|j| - 1])
    decreases |ws|
  {
    if |ws| > 1 {
      assert forall w :: w in ws[1..] ==> w in ws;
      JoinBorders(ws[1..]);
      assert ws[0] in ws;
      var j := Join(ws, " ");
      var rest := Join(ws[1..], " ");
      assert j == ws[0] + " " + rest;
      assert j[0] == ws[0][0];
      assert j[|j| - 1] == rest[|rest| - 1];
    } else if |ws| == 1 {
      assert ws[0] in ws;
    }
  }

  function LowerChar(c: char): char {
    if 'A' <= c <= 'Z' then (c as int + 32) as char else c
  }

  /** SQL's `LOWER`, restricted to the ASCII letters. */
  function Lower(s: string): (r: string)
    ensures |r| == |s|
    ensures forall i :: 0 <= i < |s| ==> r[i] == LowerChar(s[i])
  {
    seq(|s|, i requires 0 <= i < |s| => LowerChar(s[i]))
  }

  lemma LowerAppend(a: string, b: string)
    ensures Lower(a + b) == Lower(a) + Lower(b)
  {
  }
}

=== FILE: users.dfy ===
/**
 The user repository: the `users` table behind an abstract store. Every
 operation that hands a user back to a caller projects the row onto the safe
 field list, which leaves out the password digest; only the lookup by email
 used for authentication returns the digest.
 */
module Users {
  import opened Values
  import opened Text
  import opened Tables
  import SetClause

  /** The profile columns a partial update may set. */
  const AllowedUpdateFields: seq<string> :=
    ["nome", "sobrenome", "email", "telefone", "departamento", "cargo", "bio", "avatar_base64",
     "idade", "cep", "localidade", "uf", "bairro", "logradouro", "numero"]

  /** The columns returned to clients besides the id: every profile column and
      the two timestamps, never the digest. */
  const SafeFields: seq<string> := AllowedUpdateFields + ["created_at", "updated_at"]

  /** The column holding the password digest. */
  const Digest: string := "senha_hash"

  /** The columns the insert of `createUser` writes, in statement order. */
  const InsertColumns: seq<string> :=
    ["nome", "sobrenome", "email", "telefone", "departamento", "cargo", "bio", "avatar_base64",
     "senha_hash", "idade", "cep", "localidade", "uf", "bairro", "logradouro", "numero"]

  /** The columns besides the id that the lookup for authentication selects. */
  const AuthFields: seq<string> := ["nome", "sobrenome", "email", "cargo", "senha_hash"]

  /** The columns besides the id that a password change returns. */
  const PasswordAckFields: seq<string> := ["email", "updated_at"]

  /** The role a created user gets when the caller gives none. */
  const DefaultCargo: string := "client"

  /** Every stored user row has exactly the inserted columns and the two timestamps. */
  predicate Shaped(r: Row) {
    r.cols.Keys == StoredColumns
  }

  const StoredColumns: set<string> := (set c | c in InsertColumns) + {"created_at", "updated_at"}

  /** The key the case-insensitive unique constraint compares; rows whose
      email is not a string take no part in it. */
  function EmailKey(r: Row): Option<string> {
    if "email" in r.cols && r.cols["email"].Str? then Some(Lower(r.cols["email"].s)) else None
  }

  predicate EmailsUnique(rows: seq<Row>) {
    forall i, j :: 0 <= i < j < |rows| && EmailKey(rows[i]).Some? ==> EmailKey(rows[i]) != EmailKey(rows[j])
  }

  /** The store invariant: generated ids, row shape, and unique emails. */
  predicate Valid(t: Table) {
    && Tables.Valid(t)
    && (forall i :: 0 <= i < |t.rows| ==> Shaped(t.rows[i]))
    && EmailsUnique(t.rows)
  }

  /** Whether writing `row` would give another row's email to it: the unique
      constraint's violation. */
  predicate Clashes(rows: seq<Row>, row: Row) {
    exists j :: 0 <= j < |rows| && rows[j].id != row.id && EmailKey(rows[j]).Some? && EmailKey(rows[j]) == EmailKey(row)
  }

  /** The safe projection of a stored row. */
  function Safe(r: Row): (s: Row)
    ensures s.id == r.id
    ensures Digest !in s.cols
    ensures forall k :: k in s.cols <==> k in r.cols && k in SafeFields
    ensures forall k :: k in s.cols ==> s.cols[k] == r.cols[k]
  {
    Select(r, SafeFields)
  }

  /** `getAllUsers`: every user, safe-projected, ordered by id. */
  function GetAllUsers(t: Table): (r: seq<Row>)
    ensures |r| == |t.rows|
    ensures forall i :: 0 <= i < |r| ==> r[i] == Safe(t.rows[i])
    ensures forall i :: 0 <= i < |r| ==> Digest !in r[i].cols
    ensures Tables.Valid(t) ==> forall i, j :: 0 <= i < j < |r| ==> r[i].id < r[j].id
  {
    seq(|t.rows|, i requires 0 <= i < |t.rows| => Safe(t.rows[i]))
  }

  /** `getUserById`: the safe row with that id, or null. */
  function GetUserById(t: Table, id: nat): (r: Option<Row>)
    ensures r.Some? <==> Lookup(t, id).Some?
    ensures r.Some? ==> r.value == Safe(Lookup(t, id).value) && r.value.id == id
    ensures r.Some? ==> Digest !in r.value.cols
  {
    match Lookup(t, id)
    case None => None
    case Some(row) => Some(Safe(row))
  }

  /** Whether the stored email of `r` equals `email` ignoring case (`LOWER(email) = LOWER($1)`). */
  predicate EmailMatches(r: Row, email: string) {
    EmailKey(r) == Some(Lower(email))
  }

  /** The position of the first row whose email matches. */
  function FirstEmailMatch(rows: seq<Row>, email: string): (r: Option<nat>)
    ensures r.Some? ==> r.value < |rows| && EmailMatches(rows[r.value], email)
    ensures r.Some? ==> forall j :: 0 <= j < r.value ==> !EmailMatches(rows[j], email)
    ensures r.None? <==> forall j :: 0 <= j < |rows| ==> !EmailMatches(rows[j], email)
  {
    if rows == [] then None
    else if EmailMatches(rows[0], email) then Some(0)
    else match FirstEmailMatch(rows[1..], email)
      case None => None
      case Some(i) => Some(i + 1)
  }

  /** `getUserByEmailWithHash`: the first row whose email equals `email`
      ignoring case, with its id, names, email, role and digest; or null. */
  function GetUserByEmailWithHash(t: Table, email: string): (r: Option<Row>)
    ensures r.None? <==> forall j :: 0 <= j < |t.rows| ==> !EmailMatches(t.rows[j], email)
    ensures r.Some? ==>
              exists i :: 0 <= i < |t.rows| && EmailMatches(t.rows[i], email)
                          && r.value == Select(t.rows[i], AuthFields)
                          && forall j :: 0 <= j < i ==> !EmailMatches(t.rows[j], email)
  {
    match FirstEmailMatch(t.rows, email)
    case None => None
    case Some(i) => Some(Select(t.rows[i], AuthFields))
  }

  /** The value the insert binds for column `c`: the supplied value, else the
      column's destructuring default (`'client'` for the role, null for the
      other optional fields); a required field left undefined is sent as NULL. */
  function InsertValue(data: Payload, c: string): (v: Value)
    ensures Get(data, c) != Undefined ==> v == Get(data, c)
    ensures Get(data, c) == Undefined ==> v == (if c == "cargo" then Str(DefaultCargo) else Null)
  {
    Bound(OrDefault(Get(data, c), if c == "cargo" then Str(DefaultCargo) else Null))
  }

  /** The columns of a new user row; `now` is the server's timestamp. Keys of
      `data` that are not insert columns are ignored. */
  function NewUserColumns(data: Payload, now: Value): (cols: map<string, Value>)
    ensures Shaped(Row(0, cols))
    ensures "created_at" in cols && "updated_at" in cols && Digest in cols && "cargo" in cols
    ensures forall c :: c in InsertColumns ==> c in cols
    ensures cols["created_at"] == now && cols["updated_at"] == now
    ensures cols[Digest] == Bound(Get(data, Digest))
    ensures forall c :: c in InsertColumns && Get(data, c) != Undefined ==> cols[c] == Get(data, c)
    ensures Get(data, "cargo") == Undefined ==> cols["cargo"] == Str(DefaultCargo)
    ensures forall c :: c in InsertColumns && c != "cargo" && Get(data, c) == Undefined ==> cols[c] == Null
  {
    TimestampsNotInserted();
    map c | c in StoredColumns :: if c in InsertColumns then InsertValue(data, c) else now
  }

  lemma TimestampsNotInserted()
    ensures "created_at" !in InsertColumns && "updated_at" !in InsertColumns
    ensures Digest in InsertColumns && "cargo" in InsertColumns
  {
  }

  /** `createUser`: appends a row built from `data` and returns it
      safe-projected, or fails with a unique violation, writing nothing, when
      another user already has the email, ignoring case. */
  function CreateUser(t: Table, data: Payload, now: Value): (r: Result<(Table, Row)>)
    ensures r.Err? ==> r.failure == UniqueViolation
    ensures r.Err? <==> Clashes(t.rows, Row(t.nextId, NewUserColumns(data, now)))
    ensures r.Ok? ==>
              && r.value.0 == Table(t.rows + [Row(t.nextId, NewUserColumns(data, now))], t.nextId + 1)
              && r.value.1 == Safe(Row(t.nextId, NewUserColumns(data, now)))
  {
    var ins := Insert(t, NewUserColumns(data, now));
    if Clashes(t.rows, ins.1) then Err(UniqueViolation) else Ok((ins.0, Safe(ins.1)))
  }

  /** `updateUser`: applies only the entries whose key is an allowed profile
      column and whose value is defined. With none left it is a read; otherwise
      the statement built by the SET builder runs, and a clash with another
      user's email fails with a unique violation and writes nothing. */
  function UpdateUser(t: Table, id: nat, data: Payload): (r: Result<(Table, Option<Row>)>)
    ensures |SetClause.Filter(AllowedUpdateFields, data)| == 0 ==> r == Ok((t, GetUserById(t, id)))
    ensures Lookup(t, id).None? ==> r == Ok((t, None))
    ensures r.Err? ==> r.failure == UniqueViolation
    ensures r.Ok? && r.value.1.Some? ==> Digest !in r.value.1.value.cols
  {
    var kept := SetClause.Filter(AllowedUpdateFields, data);
    if |kept| == 0 then Ok((t, GetUserById(t, id)))
    else
      match SetClause.Execute(t, SetClause.Build(kept, id))
      case (_, None) => Ok((t, None))
      case (t', Some(row)) =>
        if Clashes(t.rows, row) then Err(UniqueViolation) else Ok((t', Some(Safe(row))))
  }

  /** What an update of an existing user writes: the row's columns become the
      reference partial update of the old ones by `data`, nothing else in the
      table changes, and the call returns the new row safe-projected. It fails
      exactly when that new row would clash with another user's email. */
  lemma UpdateUserEffect(t: Table, id: nat, data: Payload)
    requires Lookup(t, id).Some?
    ensures var r := UpdateUser(t, id, data);
            var i := Find(t.rows, id).value;
            && (r.Ok? ==>
                  var cols := r.value.0.rows[i].cols;
                  && i < |r.value.0.rows|
                  && r.value.0 == Put(t, i, cols)
                  && r.value.1 == Some(Safe(Row(id, cols)))
                  && SetClause.PatchedBy(cols, t.rows[i].cols, AllowedUpdateFields, data))
            && (r.Err? ==> exists cols :: SetClause.PatchedBy(cols, t.rows[i].cols, AllowedUpdateFields, data)
                                          && Clashes(t.rows, Row(id, cols)))
  {
    var kept := SetClause.Filter(AllowedUpdateFields, data);
    var i := Find(t.rows, id).value;
    if |kept| == 0 {
      assert forall k :: !(k in AllowedUpdateFields && Get(data, k) != Undefined) by {
        SetClause.FilterKeys(AllowedUpdateFields, data);
        assert forall k :: !HasKey(kept, k);
      }
      assert Put(t, i, t.rows[i].cols) == t;
    } else {
      SetClause.BuiltUpdateEffect(t, AllowedUpdateFields, data, id);
    }
  }

  /** `updateUserPassword`: replaces only the digest of the row with that id
      and returns its id, email and update time; null when there is no such row.
      The digest is a bound parameter, so an undefined one is stored as NULL. */
  function UpdateUserPassword(t: Table, id: nat, digest: Value): (r: (Table, Option<Row>))
    ensures r.1.None? <==> Lookup(t, id).None?
    ensures r.1.None? ==> r.0 == t
    ensures r.1.Some? ==>
              var i := Find(t.rows, id).value;
              && r.0 == Put(t, i, t.rows[i].cols[Digest := Bound(digest)])
              && r.1.value.id == id
              && (forall k :: k in r.1.value.cols <==> k in t.rows[i].cols && k in PasswordAckFields)
              && (forall k :: k in r.1.value.cols ==> r.1.value.cols[k] == t.rows[i].cols[k])
  {
    match Find(t.rows, id)
    case None => (t, None)
    case Some(i) =>
      var cols := t.rows[i].cols[Digest := Bound(digest)];
      (Put(t, i, cols), Some(Select(Row(id, cols), PasswordAckFields)))
  }

  /** `deleteUser`: removes the row with that id and returns it safe-projected;
      null, and no change, when there is no such row. */
  function DeleteUser(t: Table, id: nat): (r: (Table, Option<Row>))
    ensures r.1.None? <==> Lookup(t, id).None?
    ensures r.1.None? ==> r.0 == t
    ensures r.1.Some? ==>
              && r.1.value == Safe(Lookup(t, id).value)
              && r.0 == Remove(t, Find(t.rows, id).value)
    ensures Tables.Valid(t) ==> Lookup(r.0, id).None?
  {
    match Find(t.rows, id)
    case None => (t, None)
    case Some(i) =>
      var t' := Remove(t, i);
      assert Tables.Valid(t) ==> forall j :: 0 <= j < |t'.rows| ==> t'.rows[j].id != id by {
        if Tables.Valid(t) {
          forall j | 0 <= j < |t'.rows| ensures t'.rows[j].id != id {
            if j < i { assert t'.rows[j] == t.rows[j]; } else { assert t'.rows[j] == t.rows[j + 1]; }
          }
        }
      }
      (t', Some(Safe(t.rows[i])))
  }

  lemma AllowedAreStored()
    ensures forall k :: k in AllowedUpdateFields ==> k in StoredColumns
    ensures Digest !in AllowedUpdateFields && Digest in StoredColumns
  {
  }

  /** A partial update never changes the password digest, whatever keys the
      caller sends: the digest column is not on the allow-list. */
  lemma UpdateUserKeepsDigest(t: Table, id: nat, data: Payload)
    requires Lookup(t, id).Some?
    requires Digest in Lookup(t, id).value.cols
    ensures var r := UpdateUser(t, id, data);
            r.Ok? ==> Lookup(r.value.0, id).Some?
                      && Digest in Lookup(r.value.0, id).value.cols
                      && Lookup(r.value.0, id).value.cols[Digest] == Lookup(t, id).value.cols[Digest]
  {
    var r := UpdateUser(t, id, data);
    var i := Find(t.rows, id).value;
    if r.Ok? {
      var cols := r.value.0.rows[i].cols;
      assert r.value.0 == Put(t, i, cols) && SetClause.PatchedBy(cols, t.rows[i].cols, AllowedUpdateFields, data) by {
        UpdateUserEffect(t, id, data);
      }
      LookupAfterPut(t, i, cols);
      AllowedAreStored();
    }
  }

  /** Reading a user back after a successful update gives what the update returned. */
  lemma ReadAfterUpdate(t: Table, id: nat, data: Payload)
    requires Lookup(t, id).Some?
    ensures var r := UpdateUser(t, id, data);
            r.Ok? ==> GetUserById(r.value.0, id) == r.value.1
  {
    var r := UpdateUser(t, id, data);
    var i := Find(t.rows, id).value;
    if r.Ok? {
      var cols := r.value.0.rows[i].cols;
      assert r.value.0 == Put(t, i, cols) && r.value.1 == Some(Safe(Row(id, cols))) by {
        UpdateUserEffect(t, id, data);
      }
      LookupAfterPut(t, i, cols);
    }
  }

  /** Writing columns with the same keys into row `i` keeps the store valid
      when the new row clashes with no other user's email. */
  lemma PutKeepsValid(t: Table, i: nat, cols: map<string, Value>)
    requires Valid(t)
    requires i < |t.rows|
    requires cols.Keys == StoredColumns
    requires !Clashes(t.rows, Row(t.rows[i].id, cols))
    ensures Valid(Put(t, i, cols))
  {
    var t' := Put(t, i, cols);
    forall a, b | 0 <= a < b < |t'.rows| && EmailKey(t'.rows[a]).Some?
      ensures EmailKey(t'.rows[a]) != EmailKey(t'.rows[b])
    {
      if a == i {
        assert t.rows[b].id != t.rows[i].id;
      } else if b == i {
        assert t.rows[a].id != t.rows[i].id;
      }
    }
  }

  lemma CreateUserKeepsValid(t: Table, data: Payload, now: Value)
    requires Valid(t)
    ensures var r := CreateUser(t, data, now);
            r.Ok? ==> Valid(r.value.0)
  {
    var r := CreateUser(t, data, now);
    if r.Ok? {
      var row := Row(t.nextId, NewUserColumns(data, now));
      var t' := r.value.0;
      forall a, b | 0 <= a < b < |t'.rows| && EmailKey(t'.rows[a]).Some?
        ensures EmailKey(t'.rows[a]) != EmailKey(t'.rows[b])
      {
        if b == |t.rows| {
          assert t.rows[a].id != row.id;
        }
      }
    }
  }

  /** A partial update keeps the stored columns: it only sets allowed
      columns, and every allowed column is stored. */
  lemma PatchKeepsShape(cols: map<string, Value>, prior: map<string, Value>, data: Payload)
    requires prior.Keys == StoredColumns
    requires SetClause.PatchedBy(cols, prior, AllowedUpdateFields, data)
    ensures cols.Keys == StoredColumns
  {
    AllowedAreStored();
    assert forall k :: k in cols.Keys <==> k in StoredColumns;
  }

  /** What a successful update of an existing user with something to set
      writes: one row, with the stored columns, that clashes with no other
      user's email. */
  lemma UpdateUserWrite(t: Table, id: nat, data: Payload)
    requires Valid(t)
    requires Lookup(t, id).Some?
    requires |SetClause.Filter(AllowedUpdateFields, data)| != 0
    requires UpdateUser(t, id, data).Ok?
    ensures var i := Find(t.rows, id).value;
            var t' := UpdateUser(t, id, data).value.0;
            && i < |t'.rows|
            && t' == Put(t, i, t'.rows[i].cols)
            && t'.rows[i].cols.Keys == StoredColumns
            && !Clashes(t.rows, Row(t.rows[i].id, t'.rows[i].cols))
  {
    var i := Find(t.rows, id).value;
    var ex := SetClause.Execute(t, SetClause.Build(SetClause.Filter(AllowedUpdateFields, data), id));
    SetClause.BuiltUpdateEffect(t, AllowedUpdateFields, data, id);
    assert Lookup(t, id).value == t.rows[i];
    assert !Clashes(t.rows, ex.1.value);
    PatchKeepsShape(ex.1.value.cols, t.rows[i].cols, data);
  }

  lemma UpdateUserKeepsValid(t: Table, id: nat, data: Payload)
    requires Valid(t)
    ensures var r := UpdateUser(t, id, data);
            r.Ok? ==> Valid(r.value.0)
  {
    var r := UpdateUser(t, id, data);
    if r.Ok? && Lookup(t, id).Some? && |SetClause.Filter(AllowedUpdateFields, data)| != 0 {
      var i := Find(t.rows, id).value;
      UpdateUserWrite(t, id, data);
      PutKeepsValid(t, i, r.value.0.rows[i].cols);
    }
  }

  lemma UpdateUserPasswordKeepsValid(t: Table, id: nat, digest: Value)
    requires Valid(t)
    ensures Valid(UpdateUserPassword(t, id, digest).0)
  {
    var r := UpdateUserPassword(t, id, digest);
    if r.1.Some? {
      AllowedAreStored();
      var i := Find(t.rows, id).value;
      var cols := t.rows[i].cols[Digest := Bound(digest)];
      assert EmailKey(Row(id, cols)) == EmailKey(t.rows[i]);
      assert !Clashes(t.rows, Row(id, cols)) by {
        forall j | 0 <= j < |t.rows| && t.rows[j].id != id && EmailKey(t.rows[j]).Some?
          ensures EmailKey(t.rows[j]) != EmailKey(Row(id, cols))
        {
          if j < i {
            assert EmailKey(t.rows[j]) != EmailKey(t.rows[i]);
          } else {
            assert j != i;
          }
        }
      }
      PutKeepsValid(t, i, cols);
    }
  }

  lemma DeleteUserKeepsValid(t: Table, id: nat)
    requires Valid(t)
    ensures Valid(DeleteUser(t, id).0)
  {
    match Find(t.rows, id)
    case None =>
    case Some(i) =>
      RemoveKeepsValid(t, i);
  }

  lemma RemoveKeepsValid(t: Table, i: nat)
    requires Valid(t)
    requires i < |t.rows|
    ensures Valid(Remove(t, i))
  {
    var rows := Remove(t, i).rows;
    assert forall j :: 0 <= j < |rows| ==> rows[j] == t.rows[if j < i then j else j + 1];
    forall a, b | 0 <= a < b < |rows| && EmailKey(rows[a]).Some?
      ensures EmailKey(rows[a]) != EmailKey(rows[b])
    {
      var a' := if a < i then a else a + 1;
      var b' := if b < i then b else b + 1;
      assert rows[a] == t.rows[a'] && rows[b] == t.rows[b'];
    }
  }
}

=== FILE: values.dfy ===
/**
 Values shared by every part of the model: the JSON / SQL values that travel
 from a request body into bound statement parameters, the entries of a
 JavaScript data object, and the failures a repository call can raise.
 */
module Values {

  datatype Option<+T> = None | Some(value: T)

  /** A value as the repositories see it. `Undefined` is JavaScript's
      `undefined`: a key that is missing from the object or explicitly undefined. */
  datatype Value = Undefined | Null | Bool(b: bool) | Num(n: int) | Str(s: string)

  /** One pair of `Object.entries(data)`. */
  datatype Entry = Entry(key: string, value: Value)

  predicate DistinctKeys(p: seq<Entry>) {
    forall i, j :: 0 <= i < j < |p| ==> p[i].key != p[j].key
  }

  /** A data object handed to a repository: its entries in enumeration order.
      Like the keys of any JavaScript object, its keys are distinct. */
  type Payload = p: seq<Entry> | DistinctKeys(p) witness []

  predicate HasKey(p: seq<Entry>, key: string) {
    exists e :: e in p && e.key == key
  }

  /** `data[key]`: the value stored under `key`, or `Undefined` when there is none. */
  function Get(p: Payload, key: string): (v: Value)
    ensures forall e :: e in p && e.key == key ==> v == e.value
    ensures !HasKey(p, key) ==> v == Undefined
  {
    if p == [] then Undefined
    else if p[0].key == key then p[0].value
    else Get(p[1..], key)
  }

  /** The default of a destructuring pattern `{ key = d } = data`: it applies
      exactly when the property is undefined, never to an explicit `null`. */
  function OrDefault(v: Value, d: Value): (r: Value)
    ensures v != Undefined ==> r == v
    ensures v == Undefined ==> r == d
  {
    if v == Undefined then d else v
  }

  /** What the database driver stores for a bound parameter: `undefined` is sent as NULL. */
  function Bound(v: Value): (r: Value)
    ensures r != Undefined
    ensures v == Undefined ==> r == Null
    ensures v != Undefined ==> r == v
  {
    if v == Undefined then Null else v
  }

  /** The ways a repository call can fail. The first three are storage
      constraint violations; the next three are the project validators'
      `Error`s; `StorageFault` is any other database or connection failure. */
  datatype Failure =
    | UniqueViolation
    | ForeignKeyViolation
    | InvalidStatus
    | InvalidPriority
    | InvalidProgress
    | StorageFault

  /** The SQLSTATE code an error carries, or "" for errors thrown by the repository itself. */
  function SqlState(f: Failure): string {
    match f
    case UniqueViolation => "23505"
    case ForeignKeyViolation => "23503"
    case StorageFault => "08006"
    case _ => ""
  }

  datatype Result<+T> = Ok(value: T) | Err(failure: Failure)
}
